=== FILE: README.md ===
# API Tester core, modelled in Dafny

The API Tester is a Django web application that exercises an Open Bank
Project (OBP) API. It fetches the API's Swagger description (its "resource
docs"), lists the GET calls it contains, and runs a chosen call against the
API. For each run it records the payload, the time taken, and why the test
failed, if it did. Users keep named test configurations, and per-profile
operation records with saved request bodies.

This project models the deterministic core of that system as pure Dafny
functions and proves properties about them:

- `wrappers.dfy` (`Wrappers`): `Option` and `Result`.
- `text.dfy` (`Text`): the string operations the code relies on:
  - Python `str.find`, `in` and `str.split`;
  - JavaScript `lastIndexOf`;
  - `str(int)`, with a reader that parses it back;
  - Python's ordering of strings, and `sorted` as a sorted permutation.
- `json.dfy` (`Json`): a parsed JSON value, plus the Python operations the code applies to it without checking its type:
  - truthiness;
  - `key in value`, `value[key]` and iteration.

  Each of these gives the Python result or names the exception Python raises.
- `api.dfy` (`Api`): the OBP client object. It covers:
  - building the request in `call`;
  - `get`/`delete`/`post`/`put`;
  - the response classifier `handle_response` and its 404, 500 and `error` helpers;
  - the memoised Swagger fetch `get_swagger`;
  - the version choice list `get_api_version_choices`.
- `runtests.dfy` (`RunTests`): the test views, which take an explicit `"method path"` test string. They cover:
  - the index listing of GET calls;
  - `get_config`;
  - `run_test`;
  - the run view's context, including its message list and success flag.
- `client.dfy` (`Client`): the browser script. It covers:
  - `escapeHTML`;
  - the path a run request is posted to;
  - the configuration key read from the page address;
  - the address the configuration selector navigates to.
- `models.dfy` (`Models`): the `TestConfiguration` and `ProfileOperation` records, with their defaults. It also covers:
  - a table of configurations that enforces the NOT NULL owner and the UNIQUE name;
  - form-level validation (`full_clean`);
  - the table of profile operations, which has no uniqueness constraint;
  - the `__str__` forms.

Modelling choices:

- **HTTP transport.** It is a function parameter, `send: Request -> Transmission`. It answers a request with:
  - a status code;
  - the response text;
  - the JSON parser's verdict on that text, which is `None` when the text is not JSON;
  - the elapsed milliseconds.

  It may instead report a connection failure with its cause.
- **The description cache.** It is an explicit map from cache key to JSON value that every operation takes and returns.
- **Exceptions.** A Python exception that escapes a handler is an `Api.Error`:
  - `APIError(message)` for the application's own exception;
  - `Crash(kind)` for a built-in exception such as `KeyError`, `TypeError`, `IndexError`, `ValueError`, `AttributeError` or `UnboundLocalError`.
- **JSON objects.** An object is a sequence of members in insertion order. Lookups take the first member with the key. A parsed Python dict has distinct keys (`Json.DistinctKeys`), and then the first member is the only one.
- **Python built-ins.** `Json.PyContains`, `Json.PyIndex` and `Json.PyIter` define `in`, `[]` and iteration on JSON values, branch by branch as Python does. Their meaning is stated by the lemmas that relate them: `Json.ContainsIsIterationMembership` and `Json.IndexAgreesWithContains`.

Some behaviour of the code is easy to misread:

- **Expired access token.** An error message mentioning the expired token is raised as `APIError` with the message verbatim. Nothing else happens: there is no logout.
- **Malformed or missing Swagger description.** The code raises whatever Python raises: `KeyError`, `TypeError`, `AttributeError`, or the `APIError` from the fetch. The call listing does not fall back to an empty list. The model returns that exception.
- **`api_version` format.** `api_version` is free text. The comment at apitester/obp/api.py:182 names a `<STANDARD>v<VERSION>` form, but nothing checks it, and `3.0.1` is accepted.
- **Profile operation keys.** Nothing makes (profile, operation, replica) unique, so duplicate triples are stored as separate rows.

The 404 handler is modelled exactly as written:

- `if response.text.find('body')` is false only when the text *starts* with `body`. In that case `msg` is unbound and Python raises `UnboundLocalError`.
- A text without `<body>` makes `split('<body>')[1]` raise `IndexError`.
- Otherwise the message is cut at the first `</body>`, or at a second `<body>`, whichever comes first. This is because the first piece of a split ends at either tag.

## Model

| member | source | states |
|---|---|---|
| Text.IndexOf | apitester/obp/api.py:110 | `find` gives -1 exactly when the needle is absent. Otherwise it gives the first index where the needle occurs. |
| Text.Split | apitester/obp/api.py:111 | `split` yields at least one piece. No piece contains the separator, and the pieces joined with the separator give back the input. |
| Text.SplitCharCount | apitester/runtests/views.py:55 | Splitting on a character yields one more piece than the character's occurrences. So a two-name unpacking succeeds exactly when there is one separator. |
| Text.LastIndexOf | apitester/runtests/static/runtests/js/runtests.js:120 | `lastIndexOf` gives the last position of the character, or -1, and no later position holds it. |
| Text.IntToDecimal | apitester/obp/api.py:112-113 | `str(int)` is non-empty and starts with `-` exactly for negative numbers. |
| Text.IntDecimalRoundTrip | apitester/runtests/views.py:86-87 | The decimal text of an integer reads back as that integer. |
| Text.LexTotal | apitester/obp/api.py:204 | Any two strings are comparable under Python's string order. |
| Text.LexTransitive | apitester/obp/api.py:204 | Python's string order is transitive. |
| Text.LexAntisymmetric | apitester/obp/api.py:204 | Two strings that are each at most the other are equal. |
| Text.SortStrings | apitester/obp/api.py:204 | `sorted` returns an ascending permutation of its input. |
| Text.SortedPermutationUnique | apitester/obp/api.py:204 | Two ascending sequences with the same elements are equal. So the sorted list is determined by the multiset of versions. |
| Json.Lookup | apitester/obp/api.py:144 | The looked-up value is a member of the object under that key. |
| Json.LookupDistinct | apitester/obp/api.py:144 | In a dict with distinct keys, looking up any member's key gives that member's value. |
| Json.ContainsIsIterationMembership | apitester/obp/api.py:143 | `key in value` raises exactly where iterating the value raises, that is for null, booleans and numbers. On a list, a dict, or a string with a one-character key, it holds exactly when iteration yields `key`. |
| Json.IndexAgreesWithContains | apitester/obp/api.py:143-144 | `value[key]` succeeds exactly on a dict for which `key in value` holds. With distinct keys it gives the value of the member under that key. |
| Api.OutgoingRequest | apitester/obp/api.py:50-59 | The request keeps the method and URL. It carries a JSON body exactly when the payload is present and truthy. |
| Api.Invoke | apitester/obp/api.py:68-106 | A verb requests API_ROOT + urlpath. A connection failure raises APIError with the cause. A value comes back only from an answered request whose status is neither 404 nor 500. A 204 returns the raw text. An answered request's outcome is `handle_response` of that answer with its elapsed time. |
| Api.VerbsSendOneRequest | apitester/obp/api.py:68-106 | `get`, `delete`, `post` and `put` send one request each, named GET, DELETE, POST and PUT, to API_ROOT + urlpath. POST and PUT carry the payload exactly when it is truthy, and GET and DELETE never carry one. The outcome depends only on the transport's answer to that request. |
| Api.HandleResponse404 | apitester/obp/api.py:108-115 | A 404 handler never returns normally: <br>- text starting with `body` raises UnboundLocalError; <br>- text without `<body>` raises IndexError; <br>- otherwise it raises APIError with prefix, status and the body snippet. |
| Api.BodySnippetSpec | apitester/obp/api.py:111 | The snippet is the text right after the first `<body>`, up to the earliest later `<body>` or `</body>`, or up to the end. It contains neither tag. |
| Api.NotFoundMessage | apitester/obp/api.py:110-113 | For a 404 whose text has `<body>` and does not start with `body`, the APIError message is `APIError 404: ` followed by that snippet. |
| Api.HandleResponse500 | apitester/obp/api.py:117-121 | A 500 raises APIError. Its message is `APIError `, then the status code, which parses back to the status, then `: ` and the whole response text. |
| Api.HandleResponseError | apitester/obp/api.py:123-127 | A string error raises APIError whose message ends with the error text. The message is that text alone exactly when it mentions the expired token. Otherwise it is the prefix, a space and the text, with nothing in between. A null, boolean or number error raises TypeError. |
| Api.Decimal404And500 | apitester/obp/api.py:118-119 | The status codes 404 and 500 print as `404` and `500` inside the messages. |
| Api.HandleResponse | apitester/obp/api.py:129-145 | The response is classified by status code and then by payload: <br>- 404 fails exactly as the 404 handler does; <br>- 500 raises `APIError 500: ` + the whole text; <br>- 204 returns the raw text; <br>- an unparsable body returns ""; <br>- an object without `error` is returned unchanged; <br>- a string `error` raises it verbatim when it contains the expired-token text, and otherwise raises `APIError ` + the message. <br>Any returned value is the raw text or the payload. |
| Api.UnparsableBodyIsEmpty | apitester/obp/api.py:139-145 | A body that does not parse yields "" and never an error, for every status other than 404, 500 and 204. |
| Api.ErrorMemberIgnoresStatus | apitester/obp/api.py:143-144 | For an object payload, the outcome does not depend on the status code, the text or the time. Raising on an `error` member changes nothing else. |
| Api.GetSwagger | apitester/obp/api.py:191-198 | The key is `/resource-docs/{version}/swagger?{params}`, with defaults `OBPv3.1.0` and "". It fetches exactly when the cached value is missing or falsy, and the result is what is cached afterwards. A failed fetch leaves the cache unchanged. Other keys are untouched. |
| Api.SwaggerMemoised | apitester/obp/api.py:195-198 | Once a truthy description is cached, asking again makes no call and returns the same value. |
| Api.FalsySwaggerRefetched | apitester/obp/api.py:195-197 | A falsy description, such as "" from an unparsable answer, is fetched again on the next request. |
| Api.SwaggerPathInjective | apitester/obp/api.py:191 | For versions without `/`, different (version, params) pairs never share a cache key. |
| Api.VersionChoices | apitester/obp/api.py:202-205 | The prompt `('', 'Choose ...')` comes first, followed by one `(v, v)` per version. The list has n + 1 entries, ascending, and the versions are a permutation of the input. |
| Api.VersionKeys | apitester/obp/api.py:204 | Every scanned version yields its `API_VERSION` string, in order. A missing key raises. |
| Api.GetApiVersionChoices | apitester/obp/api.py:200-206 | A failed `/api/versions` fetch propagates its error. A success starts with the prompt and continues in ascending version order, each choice after the prompt being a (v, v) pair. |
| Api.VersionChoicesOfWellFormedAnswer | apitester/obp/api.py:200-206 | For a well-formed answer, the choices are exactly `VersionChoices` of the scanned versions: the prompt, then one (v, v) pair per version in ascending order. |
| RunTests.PathItems | apitester/runtests/views.py:24 | `swagger['paths'].items()` succeeds exactly when `paths` is a dict. The paths it gives, in order, are exactly what iterating `paths` yields. |
| RunTests.PathItemsIndexable | apitester/runtests/views.py:24 | With distinct keys, each pair `items()` gives is a path and `paths[path]`. |
| RunTests.ListGetCalls | apitester/runtests/views.py:24-33 | If no `get` or `summary` lookup can raise, the listing succeeds. Every listed row is a GET expecting 200. |
| RunTests.GetPositionsIncreasing | apitester/runtests/views.py:24-26 | The path items offering `get` are visited in the description's order. |
| RunTests.GetPositionsComplete | apitester/runtests/views.py:24-26 | Every path item with a `get` key is visited. |
| RunTests.ListGetCallsFollowsPositions | apitester/runtests/views.py:24-33 | A successful listing has exactly one row per path item with a `get` key, in order. Each row has that item's path, method `get`, that operation's summary and response code 200. |
| RunTests.IndexView | apitester/runtests/views.py:19-38 | The listing reads the default description through the cache. Fetch errors propagate. A fetched description gives exactly what `ListGetCalls` gives over its paths, and a Python error on the way is raised. Every listed call is a GET expecting 200. |
| RunTests.SplitTest | apitester/runtests/views.py:55 | The test string splits exactly when it holds one space, and ValueError is raised otherwise. The method, a space and the path give back the string. |
| RunTests.FindConfig | apitester/runtests/views.py:57-66 | A configuration comes from the first path equal to the test path that offers the method: it offers the method, and no earlier equal path does. It has that summary, response code 200 and no `responseHas`. `None` means no matching path offers the method. |
| RunTests.GetConfig | apitester/runtests/views.py:54-66 | Any configuration found has the test's method and path, code 200 and no `responseHas`. A description without a `paths` dict raises. |
| RunTests.GetConfigFindsExactly | apitester/runtests/views.py:57-66 | When lookups cannot fail, a configuration is found exactly when the path is a key and the method is a key under it. |
| RunTests.RunTest | apitester/runtests/views.py:68-99 | The outcomes of one run are: <br>- a connection failure appends the error as the only new message and clears success, without looking at a status; <br>- a body that does not parse raises ValueError; <br>- a status mismatch records payload and time and appends the wrong-status message; <br>- a missing expected substring appends the not-in message. <br>At most one message is added, and success holds exactly when none was. |
| RunTests.InitialContext | apitester/runtests/views.py:103-109 | A fresh context holds the configuration, no payload, execution time -1, no messages and success true. |
| RunTests.RunView | apitester/runtests/views.py:101-117 | A test string without exactly one space raises before any fetch. Otherwise the cache is the fetch's, and a failed fetch or configuration lookup is raised. A missing configuration gives exactly the context (None, None, -1, [`Test … is not configured!`], false). A found configuration is run exactly as `run_test` runs it from the fresh context. Every context has at most one message, success exactly when there are none, and never a not-in message. |
| RunTests.WrongStatusOrder | apitester/runtests/views.py:86-87 | The wrong-status message names the expected code first and the received code second. Both read back as the integers. |
| Client.LookaheadIsEntity | apitester/runtests/static/runtests/js/runtests.js:3 | The greedy scan behind `(?!\w+;)` sees an entity exactly when one or more `[A-Za-z0-9_]` characters followed by `;` come next. |
| Client.ReplaceChar | apitester/runtests/static/runtests/js/runtests.js:3 | A global one-character replacement removes the character when the replacement lacks it. It keeps every other character that the replacement lacks, and leaves strings without the character unchanged. |
| Client.EscapeHtml | apitester/runtests/static/runtests/js/runtests.js:2-4 | The output has no `<`, `>` or `"`. A string without any of `&<>"` comes back unchanged. |
| Client.EscapeHtmlIsReference | apitester/runtests/static/runtests/js/runtests.js:3 | The four chained replacements equal the independent per-character reading. |
| Client.EscapeHtmlCons | apitester/runtests/static/runtests/js/runtests.js:3 | Characters map one at a time: <br>- `<`, `>` and `"` become `&lt;`, `&gt;` and `&quot;`; <br>- an `&` stays exactly when a word run and `;` follow, and becomes `&amp;` otherwise; <br>- every other character is copied, in order. |
| Client.EscapeRefIsWellEscaped | apitester/runtests/static/runtests/js/runtests.js:3 | Escaped text has nothing left to escape: no tag characters, and every `&` opens an entity. |
| Client.EscapeHtmlFixedPoints | apitester/runtests/static/runtests/js/runtests.js:3 | `escapeHTML` leaves a string unchanged exactly when that string is well escaped. |
| Client.EscapeHtmlIdempotent | apitester/runtests/static/runtests/js/runtests.js:3 | Escaping twice gives the same text as escaping once. |
| Client.RunPath | apitester/runtests/static/runtests/js/runtests.js:12 | The run path starts with `run/`, and its length is the four pieces plus the seven separator characters. |
| Client.RunPathRoundTrip | apitester/runtests/static/runtests/js/runtests.js:12 | When method, configuration key and operation id contain no `/`, the run path gives back all four pieces, whatever the URL path contains. |
| Client.ParseRunPathRebuilds | apitester/runtests/static/runtests/js/runtests.js:12 | Any path that parses is exactly the run path of its parsed pieces. |
| Client.ConfigPk | apitester/runtests/static/runtests/js/runtests.js:120 | The key is the suffix after the last `/`, or the whole address when there is none. It contains no `/`. |
| Client.ShowsRunUiIff | apitester/runtests/static/runtests/js/runtests.js:120-126 | The run buttons and test list are un-hidden exactly when the address is non-empty and does not end in `/`. |
| Client.SelectTarget | apitester/runtests/static/runtests/js/runtests.js:111-118 | Selecting a configuration navigates to the index URL followed by the key, which is the index URL itself for an empty key. |
| Client.SelectThenRead | apitester/runtests/static/runtests/js/runtests.js:111-126 | After selecting a slash-free key from an index URL ending in `/`, the page reads back that same key. It shows the run UI exactly when the key is non-empty. |
| Models.NewConfiguration | apitester/runtests/models.py:10-152 | A new configuration holds the given owner, name and API version. Every substitution field from `username` to `consumer_id` is NULL. |
| Models.NewProfileOperation | apitester/runtests/models.py:162-212 | A new profile operation has order 100, replica id 1 and deletion flag 0, and holds the given values. |
| Models.Save | apitester/runtests/models.py:11-33 | A save is rejected exactly when the owner is NULL or another row has the name, and a rejected save leaves the table unchanged. An accepted save writes the row under the given key, or a fresh one. The table keeps names unique. |
| Models.Delete | apitester/runtests/models.py:10 | Deleting removes that row and keeps the table valid. Every other row is unchanged. |
| Models.DuplicateNameRejected | apitester/runtests/models.py:11-18 | Inserting a name that is already stored is refused and the table is unchanged. |
| Models.SavedNameIsUnique | apitester/runtests/models.py:11-18 | After a successful save, exactly one row has the saved name. |
| Models.CleanErrors | apitester/runtests/models.py:11-152 | Validation reports these problems: <br>- a blank name or API version; <br>- a NULL owner; <br>- an over-long value; <br>- a name that passes the blank and length checks but is stored under another key. <br>Substitutions may be NULL or blank. |
| Models.CleanConfigurationSaves | apitester/runtests/models.py:11-33 | A configuration that passes validation is always accepted by the table. |
| Models.MinimalConfigurationSaves | apitester/test_create_test_configuration.py:9-11 | Owner 1, name `Fred` and version `3.0.1` alone pass validation and save into an empty table. |
| Models.InsertOperation | apitester/runtests/models.py:162-216 | No declared constraint refuses a profile operation, since none of its columns is unique. An insert adds exactly that row under a fresh key. |
| Models.DuplicateTriplesAccepted | apitester/runtests/models.py:163-197 | The same (profile id, operation id, replica id) can be stored twice, under two keys. |
| Models.DeleteConfiguration | apitester/runtests/models.py:163-166 | Deleting a configuration leaves every profile operation in place, including those carrying its id. |
| Models.ConfigurationTextIdentifies | apitester/runtests/models.py:158-159 | `str()` of a configuration is its name, so two stored configurations never print the same. |
| Models.OperationText | apitester/runtests/models.py:218-219 | `str()` of a profile operation starts with `profile_id:\t` and ends with a newline. |
| Models.OperationTextRoundTrip | apitester/runtests/models.py:218-219 | The text gives back the profile id and the operation id's text, where a NULL id prints as `None`. |

## Left out

- HTTP I/O: the `requests` session and `ConnectionError` are replaced by the `send` parameter, and authentication sessions by nothing. `start_session` and its dynamic import of authenticator classes are left out, as are apitester/obp/views.py and apitester/obp/authenticator.py.
- Timing: `time.time()` and the float arithmetic behind `execution_time`. The transport supplies the elapsed milliseconds as an integer.
- Logging and `print`.
- JSON parsing and pretty-printing: `response.json()` is the transport's parser verdict, and `json.dumps` of the result is not modelled. The run context keeps the parsed payload.
- Cache expiry: `CACHE_TIMEOUT` and process-wide sharing. The cache is an explicit map, and eviction would be an external change to it.
- Django routing (the urls.py files), `render_to_response`/`get_data`, context processors, forms and templates.
- jQuery DOM handling in runtests.js: the save and copy posts, reload timers and check-all buttons. So is the HTML built from a run's answer, apart from `escapeHTML`.
- `escapeHTML`'s `String(s)` coercion of non-strings. The model takes a string.
- JSON numbers are integers. Floating-point payloads are not modelled.
- The migration that adds `resource_doc_params`, which the model class lacks.
- Placeholder substitution, request-body synthesis, replica copy/soft-delete registry logic and per-method expected status codes. None of these appear in the modelled code.
- Api.HandleResponseError: an `error` member that is a list or dict would be raised through Python's `str()` rendering. The model returns `Unmodelled` for it, and a number, boolean or null `error` member is a `TypeError` crash.
- Api.VersionKeys: sorting `API_VERSION` values that are not strings (Python's mixed-type comparisons) returns `Unmodelled`.
- Json.Lookup: `json.loads` keeps the last value of a key that a JSON text repeats, while `Lookup` takes the first member. The model agrees with Python only on objects with distinct keys (`Json.DistinctKeys`). Every dict has distinct keys, and texts that repeat a key are not modelled.
- RunTests.RunTest: `run_test` passes the bare urlpath (apitester/runtests/views.py:72) to `call`, which hands it to `requests` (apitester/obp/api.py:53-59). For a URL without a scheme, `requests` raises `MissingSchema`, a `ValueError` that the `except ConnectionError` at apitester/obp/api.py:60 does not catch. The `send` parameter cannot express that, so the model lets the transport answer any URL.
- RunTests.RunTest: the appended `APIError` is kept as its cause text, and the not-in message keeps the payload rather than Python's `str()` rendering of it.
- Models.CleanErrors: only the declared field constraints are checked. `max_length` is treated as a validation rule, because whether the database also enforces it depends on the backend. The owner's reference to an existing user is not checked.
- Models.Save: no check that the owner user exists, and no concurrency. Values longer than `max_length=255` are accepted by `save()` here, although PostgreSQL and MySQL reject them on insert; whether that happens depends on the database backend.
- Models.InsertOperation: the IntegerField columns `profile_id`, `order`, `replica_id` and `is_deleted` are unbounded integers here, while the database only stores its integer range and rejects values outside it. The `max_length` of `operation_id`, `urlpath` and `remark` is not enforced either, which PostgreSQL and MySQL would do on insert.
- Client.RunPathRoundTrip: the method, configuration key and operation id must be free of `/`. A `/` in any of them makes the run path ambiguous, and the source does not guard against that.

=== FILE: api.dfy ===
/**
 * The API wrapper of apitester/obp/api.py: building a request from a verb, a
 * URL and an optional payload, classifying the response into a value or an
 * `APIError`, the memoised fetch of the Swagger description, and the list of
 * API version choices.
 *
 * The HTTP transport is a parameter `send`: for a request it gives either the
 * answer (status code, text, the JSON parser's verdict on the text, elapsed
 * milliseconds) or a connection failure. The process-wide cache is an explicit
 * map that the caller passes in and gets back.
 */
module Api {
  import opened Wrappers
  import opened Json
  import Text

  /** What an API operation raises instead of returning a value. */
  datatype Error =
    | APIError(message: string)
      /** a Python built-in exception that escapes the handler */
    | Crash(kind: PyError)
      /** an error value whose message would need Python's str() of a list or dict */
    | Unmodelled(what: string)

  datatype Request = Request(httpMethod: string, url: string, json: Option<Json>)

  /** What the transport makes of one request. `body` is the JSON parser's verdict: None when the text is not JSON. */
  datatype Transmission =
    | Answered(statusCode: int, text: string, body: Option<Json>, elapsedMs: int)
    | ConnectionFailed(cause: string)

  /** A response as `call` returns it, with `execution_time` attached. */
  datatype Response = Response(statusCode: int, text: string, body: Option<Json>, executionTime: int)

  datatype Verb = GET | DELETE | POST | PUT

  const Prefix := "APIError"
  const ExpiredToken := "Invalid or expired access token"
  const DefaultApiVersion := "OBPv3.1.0"
  const VersionsPath := "/api/versions"

  function VerbName(v: Verb): string {
    match v
    case GET => "GET"
    case DELETE => "DELETE"
    case POST => "POST"
    case PUT => "PUT"
  }

  // ---------------------------------------------------------------------------
  // Issuing a call
  // ---------------------------------------------------------------------------

  /** The request `call` hands to the session: the payload travels as JSON only when it is truthy. */
  function OutgoingRequest(httpMethod: string, url: string, payload: Option<Json>): (q: Request)
    ensures q.httpMethod == httpMethod && q.url == url
    ensures q.json.Some? <==> payload.Some? && Truthy(payload.value)
    ensures q.json.Some? ==> q.json == payload
  {
    Request(httpMethod, url, if payload.Some? && Truthy(payload.value) then payload else None)
  }

  /** `API.call`: one request; a connection failure becomes the error's cause, an answer gets its elapsed time. */
  function Call(httpMethod: string, url: string, payload: Option<Json>, send: Request -> Transmission): (r: Result<Response, string>)
    ensures var t := send(OutgoingRequest(httpMethod, url, payload));
      && (r.Err? <==> t.ConnectionFailed?)
      && (r.Err? ==> r.error == t.cause)
      && (r.Ok? ==> r.value == Response(t.statusCode, t.text, t.body, t.elapsedMs))
  {
    match send(OutgoingRequest(httpMethod, url, payload))
    case ConnectionFailed(cause) => Err(cause)
    case Answered(status, text, body, elapsed) => Ok(Response(status, text, body, elapsed))
  }

  /** `get`, `delete`, `post` and `put`: a call on API_ROOT + urlpath, then `handle_response`. */
  function Invoke(verb: Verb, root: string, urlpath: string, payload: Option<Json>, send: Request -> Transmission): (r: Result<Json, Error>)
    ensures var t := send(OutgoingRequest(VerbName(verb), root + urlpath, payload));
      && (t.ConnectionFailed? ==> r == Err(APIError(t.cause)))
      && (r.Ok? ==> t.Answered? && t.statusCode != 404 && t.statusCode != 500)
      && (t.Answered? && t.statusCode == 204 ==> r == Ok(JStr(t.text)))
      && (t.Answered? ==> r == HandleResponse(Response(t.statusCode, t.text, t.body, t.elapsedMs)))
  {
    match Call(VerbName(verb), root + urlpath, payload, send)
    case Err(cause) => Err(APIError(cause))
    case Ok(response) => HandleResponse(response)
  }

  function Get(root: string, urlpath: string, send: Request -> Transmission): Result<Json, Error> {
    Invoke(GET, root, urlpath, None, send)
  }

  function Delete(root: string, urlpath: string, send: Request -> Transmission): Result<Json, Error> {
    Invoke(DELETE, root, urlpath, None, send)
  }

  function Post(root: string, urlpath: string, payload: Json, send: Request -> Transmission): Result<Json, Error> {
    Invoke(POST, root, urlpath, Some(payload), send)
  }

  function Put(root: string, urlpath: string, payload: Json, send: Request -> Transmission): Result<Json, Error> {
    Invoke(PUT, root, urlpath, Some(payload), send)
  }

  /**
   * Each verb sends exactly one request: method name, API_ROOT + urlpath and a
   * JSON body exactly when the payload is truthy; two transports that agree on
   * that request give the same outcome.
   */
  lemma VerbsSendOneRequest(root: string, urlpath: string, payload: Json, send1: Request -> Transmission, send2: Request -> Transmission)
    requires forall m: string, body: Option<Json> :: send1(Request(m, root + urlpath, body)) == send2(Request(m, root + urlpath, body))
    ensures Get(root, urlpath, send1) == Get(root, urlpath, send2)
    ensures Delete(root, urlpath, send1) == Delete(root, urlpath, send2)
    ensures Post(root, urlpath, payload, send1) == Post(root, urlpath, payload, send2)
    ensures Put(root, urlpath, payload, send1) == Put(root, urlpath, payload, send2)
    ensures OutgoingRequest(VerbName(GET), root + urlpath, None) == Request("GET", root + urlpath, None)
    ensures OutgoingRequest(VerbName(DELETE), root + urlpath, None) == Request("DELETE", root + urlpath, None)
    ensures OutgoingRequest(VerbName(POST), root + urlpath, Some(payload)) == Request("POST", root + urlpath, if Truthy(payload) then Some(payload) else None)
    ensures OutgoingRequest(VerbName(PUT), root + urlpath, Some(payload)) == Request("PUT", root + urlpath, if Truthy(payload) then Some(payload) else None)
  {
    var g := OutgoingRequest("GET", root + urlpath, None);
    assert send1(g) == send2(g);
    var d := OutgoingRequest("DELETE", root + urlpath, None);
    assert send1(d) == send2(d);
    var p := OutgoingRequest("POST", root + urlpath, Some(payload));
    assert send1(p) == send2(p);
    var u := OutgoingRequest("PUT", root + urlpath, Some(payload));
    assert send1(u) == send2(u);
  }

  // ---------------------------------------------------------------------------
  // Classifying a response
  // ---------------------------------------------------------------------------

  const BodyOpen := "<body>"
  const BodyClose := "</body>"

  /** `text.split('<body>')[1].split('</body>')[0]`, defined when `<body>` occurs. */
  function BodySnippet(text: string): string
    requires Text.Contains(text, BodyOpen)
  {
    Text.SplitSecond(text, BodyOpen);
    Text.Split(Text.Split(text, BodyOpen)[1], BodyClose)[0]
  }

  /** No `<body>` or `</body>` tag starts anywhere in text[from..upTo]. */
  predicate NoTagStarts(text: string, from: int, upTo: int) {
    forall j :: from <= j < upTo ==> !Text.OccursAt(text, BodyOpen, j) && !Text.OccursAt(text, BodyClose, j)
  }

  /** Position `e` is the end of the text or where a `<body>` or `</body>` tag starts. */
  predicate TagOrEnd(text: string, e: int) {
    e == |text| || Text.OccursAt(text, BodyOpen, e) || Text.OccursAt(text, BodyClose, e)
  }

  lemma OccursShift(t: string, a: int, p: string, j: int)
    requires 0 <= a <= |t| && 0 <= j
    ensures Text.OccursAt(t[a..], p, j) <==> Text.OccursAt(t, p, a + j)
  {
    if j + |p| <= |t[a..]| {
      assert t[a..][j..j + |p|] == t[a + j..a + j + |p|];
    }
  }

  lemma OccursTruncated(u: string, k: int, p: string, j: int)
    requires 0 <= k <= |u| && 0 <= j && j + |p| <= k
    ensures Text.OccursAt(u[..k], p, j) <==> Text.OccursAt(u, p, j)
  {
    assert u[..k][j..j + |p|] == u[j..j + |p|];
  }

  /** A `</body>` cannot start just before a `<body>` and overlap it: no character of "/body>" is '<'. */
  lemma NoCloseAcrossOpen(u: string, k: int, j: int)
    requires Text.OccursAt(u, BodyOpen, k)
    requires Text.OccursAt(u, BodyClose, j)
    requires j < k
    ensures j + |BodyClose| <= k
  {
    assert u[j..j + 7] == BodyClose;
    assert u[j + 1] == '/' && u[j + 2] == 'b' && u[j + 3] == 'o';
    assert u[j + 4] == 'd' && u[j + 5] == 'y' && u[j + 6] == '>';
    assert u[k..k + 6] == BodyOpen;
    assert u[k] == '<';
  }

  /** `split('<body>')[0].split('</body>')[0]`: what precedes the first tag of either kind. */
  function RestSnippet(u: string): string {
    Text.Split(Text.Split(u, BodyOpen)[0], BodyClose)[0]
  }

  lemma BodySnippetIsRestSnippet(text: string)
    requires Text.Contains(text, BodyOpen)
    ensures BodySnippet(text) == RestSnippet(text[Text.IndexOf(text, BodyOpen) + |BodyOpen|..])
  {
    Text.SplitSecond(text, BodyOpen);
  }

  /** The cut points of `RestSnippet`: the first `<body>` of `u`, then the first `</body>` before it. */
  lemma RestSnippetCuts(u: string)
    ensures var k := Text.IndexOf(u, BodyOpen);
      var p := if k < 0 then u else u[..k];
      var l := Text.IndexOf(p, BodyClose);
      RestSnippet(u) == if l < 0 then p else p[..l]
  {
    var k := Text.IndexOf(u, BodyOpen);
    var p := if k < 0 then u else u[..k];
    Text.SplitHead(u, BodyOpen);
    Text.SplitHead(p, BodyClose);
  }

  lemma RestSnippetIsPrefix(u: string)
    ensures |RestSnippet(u)| <= |u| && RestSnippet(u) == u[..|RestSnippet(u)|]
  {
    RestSnippetCuts(u);
  }

  lemma RestSnippetHasNoTag(u: string)
    ensures NoTagStarts(u, 0, |RestSnippet(u)|)
  {
    RestSnippetCuts(u);
    var k := Text.IndexOf(u, BodyOpen);
    var p := if k < 0 then u else u[..k];
    var n := |RestSnippet(u)|;
    forall j | 0 <= j < n
      ensures !Text.OccursAt(u, BodyClose, j)
    {
      if Text.OccursAt(u, BodyClose, j) && k >= 0 {
        NoCloseAcrossOpen(u, k, j);
        OccursTruncated(u, k, BodyClose, j);
      }
    }
  }

  lemma RestSnippetEndsAtTag(u: string)
    ensures TagOrEnd(u, |RestSnippet(u)|)
  {
    RestSnippetCuts(u);
    var k := Text.IndexOf(u, BodyOpen);
    var p := if k < 0 then u else u[..k];
    var l := Text.IndexOf(p, BodyClose);
    if l >= 0 {
      assert u[..|p|] == p;
      OccursTruncated(u, |p|, BodyClose, l);
    }
  }

  lemma NoTagShift(text: string, a: int, n: int)
    requires 0 <= a <= |text| && 0 <= n
    requires NoTagStarts(text[a..], 0, n)
    ensures NoTagStarts(text, a, a + n)
  {
    forall j | a <= j < a + n
      ensures !Text.OccursAt(text, BodyOpen, j) && !Text.OccursAt(text, BodyClose, j)
    {
      OccursShift(text, a, BodyOpen, j - a);
      OccursShift(text, a, BodyClose, j - a);
    }
  }

  /**
   * `m` is the text from index `a` up to the nearest `<body>` or `</body>`
   * tag that starts at or after `a`, or up to the end when there is none.
   */
  predicate SnippetFrom(text: string, a: int, m: string) {
    && 0 <= a && a + |m| <= |text|
    && m == text[a..a + |m|]
    && NoTagStarts(text, a, a + |m|)
    && TagOrEnd(text, a + |m|)
  }

  lemma TagOrEndShift(text: string, a: int, n: int)
    requires 0 <= a <= |text| && 0 <= n
    requires TagOrEnd(text[a..], n)
    ensures TagOrEnd(text, a + n)
  {
    OccursShift(text, a, BodyOpen, n);
    OccursShift(text, a, BodyClose, n);
  }

  lemma PrefixShift(text: string, a: int, m: string)
    requires 0 <= a <= |text|
    requires |m| <= |text[a..]| && m == text[a..][..|m|]
    ensures a + |m| <= |text| && m == text[a..a + |m|]
  {
  }

  /** A snippet of the text from `a` on, read from its start, is a snippet of the whole text from `a`. */
  lemma SnippetFromShift(text: string, a: int, m: string)
    requires 0 <= a <= |text|
    requires SnippetFrom(text[a..], 0, m)
    ensures SnippetFrom(text, a, m)
  {
    PrefixShift(text, a, m);
    NoTagShift(text, a, |m|);
    TagOrEndShift(text, a, |m|);
  }

  lemma RestSnippetIsSnippet(u: string)
    ensures SnippetFrom(u, 0, RestSnippet(u))
  {
    RestSnippetIsPrefix(u);
    RestSnippetHasNoTag(u);
    RestSnippetEndsAtTag(u);
  }

  lemma RestSnippetShifted(text: string, a: int)
    requires 0 <= a <= |text|
    ensures SnippetFrom(text, a, RestSnippet(text[a..]))
  {
    RestSnippetIsSnippet(text[a..]);
    SnippetFromShift(text, a, RestSnippet(text[a..]));
  }

  /**
   * The snippet is the text after the first `<body>` up to the nearest
   * following `<body>` or `</body>` tag, or to the end when there is none.
   */
  lemma {:induction false} BodySnippetSpec(text: string)
    requires Text.Contains(text, BodyOpen)
    ensures SnippetFrom(text, Text.IndexOf(text, BodyOpen) + |BodyOpen|, BodySnippet(text))
  {
    var a := Text.IndexOf(text, BodyOpen) + |BodyOpen|;
    assert BodySnippet(text) == RestSnippet(text[a..]) by {
      BodySnippetIsRestSnippet(text);
    }
    RestSnippetShifted(text, a);
  }

  /** `handle_response_404`: always raises; `find('body')` is falsy only when the text starts with "body". */
  function HandleResponse404(response: Response): (e: Error)
    ensures Text.StartsWith(response.text, "body") ==> e == Crash(UnboundLocalError)
    ensures !Text.StartsWith(response.text, "body") && !Text.Contains(response.text, BodyOpen) ==> e == Crash(IndexError)
    ensures !Text.StartsWith(response.text, "body") && Text.Contains(response.text, BodyOpen) ==>
              e == APIError(Prefix + " " + Text.IntToDecimal(response.statusCode) + ": " + BodySnippet(response.text))
  {
    var found := Text.IndexOf(response.text, "body");
    if found != 0 then
      if Text.Contains(response.text, BodyOpen) then
        APIError(Prefix + " " + Text.IntToDecimal(response.statusCode) + ": " + BodySnippet(response.text))
      else
        Crash(IndexError)
    else
      Crash(UnboundLocalError)
  }

  /**
   * `handle_response_500`: raises with the whole response text. The message is
   * "APIError ", the status code (readable back), ": " and the text.
   */
  function HandleResponse500(response: Response): (e: Error)
    ensures e.APIError? && |e.message| >= 9 && e.message[..9] == "APIError "
    ensures var d := Text.IntToDecimal(response.statusCode);
      && |e.message| == 9 + |d| + 2 + |response.text|
      && e.message[9..9 + |d|] == d && Text.ParseInt(d) == response.statusCode
      && e.message[9 + |d|..9 + |d| + 2] == ": "
      && e.message[9 + |d| + 2..] == response.text
  {
    Text.IntDecimalRoundTrip(response.statusCode);
    APIError(Prefix + " " + Text.IntToDecimal(response.statusCode) + ": " + response.text)
  }

  /** `handle_response_error`: an expired-token message is raised verbatim, any other one behind the prefix. */
  function HandleResponseError(prefix: string, error: Json): (e: Error)
    // a string error is raised with the string at the end of the message ...
    ensures error.JStr? ==>
              && e.APIError? && |error.s| <= |e.message|
              && e.message[|e.message| - |error.s|..] == error.s
    // ... alone exactly when it mentions the expired token, otherwise behind the prefix
    ensures error.JStr? ==> (e.message == error.s <==> Text.Contains(error.s, ExpiredToken))
    ensures error.JStr? && !Text.Contains(error.s, ExpiredToken) ==> |prefix| + 1 <= |e.message| && e.message[..|prefix| + 1] == prefix + " "
    ensures error.JStr? && !Text.Contains(error.s, ExpiredToken) ==> |e.message| == |prefix| + 1 + |error.s|
    // `in` on a scalar raises TypeError; a list or dict error needs Python's str()
    ensures error.JNull? || error.JBool? || error.JNum? ==> e == Crash(TypeError)
    ensures error.JArr? || error.JObj? ==> e.Unmodelled?
  {
    match error
    case JStr(s) => if Text.Contains(s, ExpiredToken) then APIError(s) else APIError(prefix + " " + s)
    case JArr(_) => Unmodelled("APIError raised with a list as its error value")
    case JObj(_) => Unmodelled("APIError raised with a dict as its error value")
    case _ => Crash(TypeError)
  }

  lemma Decimal404And500()
    ensures Text.IntToDecimal(404) == "404"
    ensures Text.IntToDecimal(500) == "500"
  {
    assert Text.NatToDecimal(4) == "4";
    assert Text.NatToDecimal(40) == "40";
    assert Text.NatToDecimal(5) == "5";
    assert Text.NatToDecimal(50) == "50";
  }

  /** The payload `handle_response` inspects: the parsed JSON, or "" when the text does not parse. */
  function ParsedOrEmpty(response: Response): Json {
    response.body.GetOr(JStr(""))
  }

  /** `handle_response`: the outcome of a response, decided by status code first and payload second. */
  function HandleResponse(response: Response): (r: Result<Json, Error>)
    // 404 never returns
    ensures response.statusCode == 404 ==> r.Err? && !r.error.Unmodelled?
    ensures response.statusCode == 404 ==> r == Err(HandleResponse404(response))
    ensures response.statusCode == 404 && !Text.StartsWith(response.text, "body") && Text.Contains(response.text, BodyOpen) ==>
              r == Err(APIError("APIError 404: " + BodySnippet(response.text)))
    ensures response.statusCode == 500 ==> r == Err(APIError("APIError 500: " + response.text))
    // 204 hands back the raw text and never looks at the parsed payload
    ensures response.statusCode == 204 ==> r == Ok(JStr(response.text))
    ensures response.statusCode !in {404, 500, 204} && response.body.None? ==> r == Ok(JStr(""))
    ensures && response.statusCode !in {404, 500, 204} && response.body.Some? && response.body.value.JObj?
            && !HasKey(response.body.value.fields, "error")
            ==> r == Ok(response.body.value)
    ensures && response.statusCode !in {404, 500, 204} && response.body.Some? && response.body.value.JObj?
            && HasKey(response.body.value.fields, "error") && Lookup(response.body.value.fields, "error").JStr?
            ==>
              var msg := Lookup(response.body.value.fields, "error").s;
              r == Err(APIError(if Text.Contains(msg, ExpiredToken) then msg else "APIError " + msg))
    // a value comes back only from a status other than 404 and 500, and it is the raw text or the payload
    ensures r.Ok? ==> response.statusCode !in {404, 500}
    ensures r.Ok? ==> r.value == (if response.statusCode == 204 then JStr(response.text) else ParsedOrEmpty(response))
  {
    Decimal404And500();
    assert Prefix + " " + Text.IntToDecimal(404) + ": " == "APIError 404: ";
    assert Prefix + " " + Text.IntToDecimal(500) + ": " == "APIError 500: ";
    assert Prefix + " " == "APIError ";
    if response.statusCode == 404 then
      Err(HandleResponse404(response))
    else if response.statusCode == 500 then
      Err(HandleResponse500(response))
    else if response.statusCode == 204 then
      Ok(JStr(response.text))
    else
      var data := ParsedOrEmpty(response);
      match PyContains(data, "error")
      case Err(kind) => Err(Crash(kind))
      case Ok(hasError) =>
        if hasError then
          match PyIndex(data, "error")
          case Err(kind) => Err(Crash(kind))
          case Ok(error) => Err(HandleResponseError(Prefix, error))
        else
          Ok(data)
  }

  /**
   * A 404 whose text has a `<body>` and does not start with "body" raises
   * "APIError 404: " followed by the text after the first `<body>`, cut at the
   * nearest following `<body>` or `</body>` tag.
   */
  lemma NotFoundMessage(response: Response)
    requires response.statusCode == 404
    requires !Text.StartsWith(response.text, "body") && Text.Contains(response.text, BodyOpen)
    ensures var r := HandleResponse(response);
      && r.Err? && r.error.APIError?
      && Text.StartsWith(r.error.message, "APIError 404: ")
      && SnippetFrom(response.text, Text.IndexOf(response.text, BodyOpen) + |BodyOpen|, r.error.message[|"APIError 404: "|..])
  {
    BodySnippetSpec(response.text);
    var m := BodySnippet(response.text);
    assert ("APIError 404: " + m)[|"APIError 404: "|..] == m;
  }

  /** An unparsable body is never an error: `handle_response` returns "" for it, whatever the status other than 404, 500 and 204. */
  lemma UnparsableBodyIsEmpty(status: int, text: string, elapsed: int)
    requires status !in {404, 500, 204}
    ensures HandleResponse(Response(status, text, None, elapsed)) == Ok(JStr(""))
  {
    assert !Text.Contains("", "error") by {
      assert !Text.OccursAt("", "error", 0);
    }
  }

  /** Which APIError a JSON error member produces depends only on the message text, not on the status code. */
  lemma ErrorMemberIgnoresStatus(s1: int, s2: int, text: string, fields: seq<(string, Json)>, e1: int, e2: int)
    requires s1 !in {404, 500, 204} && s2 !in {404, 500, 204}
    ensures HandleResponse(Response(s1, text, Some(JObj(fields)), e1)) == HandleResponse(Response(s2, "", Some(JObj(fields)), e2))
  {
  }

  // ---------------------------------------------------------------------------
  // The Swagger description, memoised
  // ---------------------------------------------------------------------------

  /** The cache key and request path of `get_swagger`. */
  function SwaggerPath(version: string, params: string): string {
    "/resource-docs/" + version + "/swagger?" + params
  }

  /** A cache after an operation that may have consulted it, whether the API was called, and the outcome. */
  datatype Cached<T> = Cached(cache: map<string, Json>, fetched: bool, result: Result<T, Error>)

  /**
   * `get_swagger`: fetch only when the cached value is missing or falsy, store
   * what the fetch returned, and return what is cached under the key afterwards.
   */
  function GetSwagger(cache: map<string, Json>, root: string, send: Request -> Transmission,
                      version: string := DefaultApiVersion, params: string := ""): (c: Cached<Json>)
    ensures var key := SwaggerPath(version, params);
      && (c.fetched <==> !(key in cache && Truthy(cache[key])))
      && (!c.fetched ==> c.cache == cache && c.result == Ok(cache[key]))
      && (c.fetched ==> c.result == Get(root, key, send))
      && (c.result.Ok? ==> key in c.cache && c.cache[key] == c.result.value)
      && (c.result.Err? ==> c.cache == cache)
      && (forall k :: k != key ==> (k in c.cache <==> k in cache))
      && (forall k :: k != key && k in cache ==> c.cache[k] == cache[k])
  {
    var key := SwaggerPath(version, params);
    if key in cache && Truthy(cache[key]) then
      Cached(cache, false, Ok(cache[key]))
    else
      match Get(root, key, send)
      case Err(e) => Cached(cache, true, Err(e))
      case Ok(swagger) => Cached(cache[key := swagger], true, Ok(swagger))
  }

  /** Once a truthy description is cached, asking again returns it without any call, whatever the transport would answer. */
  lemma SwaggerMemoised(cache: map<string, Json>, root: string, send1: Request -> Transmission, send2: Request -> Transmission,
                        version: string, params: string)
    requires var c := GetSwagger(cache, root, send1, version, params); c.result.Ok? && Truthy(c.result.value)
    ensures var c := GetSwagger(cache, root, send1, version, params);
      var again := GetSwagger(c.cache, root, send2, version, params);
      !again.fetched && again.cache == c.cache && again.result == c.result
  {
  }

  /** A falsy description (an empty dict, or "" from an unparsable answer) is fetched again on every request. */
  lemma FalsySwaggerRefetched(cache: map<string, Json>, root: string, send: Request -> Transmission, version: string, params: string)
    requires var c := GetSwagger(cache, root, send, version, params); c.result.Ok? && !Truthy(c.result.value)
    ensures var c := GetSwagger(cache, root, send, version, params);
      GetSwagger(c.cache, root, send, version, params).fetched
  {
  }

  lemma FirstSlashEndsVersion(v: string, rest: string)
    requires forall i :: 0 <= i < |v| ==> v[i] != '/'
    ensures Text.IndexOf(v + "/" + rest, "/") == |v|
  {
    var w := v + "/" + rest;
    assert Text.OccursAt(w, "/", |v|);
    forall j | 0 <= j < |v|
      ensures !Text.OccursAt(w, "/", j)
    {
      assert w[j..j + 1] == [v[j]];
    }
  }

  /** For versions without a slash, distinct (version, params) pairs get distinct cache keys. */
  lemma {:induction false} SwaggerPathInjective(v1: string, p1: string, v2: string, p2: string)
    requires forall i :: 0 <= i < |v1| ==> v1[i] != '/'
    requires forall i :: 0 <= i < |v2| ==> v2[i] != '/'
    requires SwaggerPath(v1, p1) == SwaggerPath(v2, p2)
    ensures v1 == v2 && p1 == p2
  {
    var s := SwaggerPath(v1, p1);
    var n := |"/resource-docs/"|;
    assert s[n..] == v1 + "/" + ("swagger?" + p1);
    assert s[n..] == v2 + "/" + ("swagger?" + p2);
    FirstSlashEndsVersion(v1, "swagger?" + p1);
    FirstSlashEndsVersion(v2, "swagger?" + p2);
    assert v1 == s[n..][..|v1|];
    assert v2 == s[n..][..|v2|];
    assert p1 == s[n + |v1| + 9..];
    assert p2 == s[n + |v2| + 9..];
  }

  // ---------------------------------------------------------------------------
  // API version choices
  // ---------------------------------------------------------------------------

  datatype Choice = Choice(value: string, display: string)

  const ChoosePrompt := Choice("", "Choose ...")

  function ChoiceValues(cs: seq<Choice>): (vs: seq<string>)
    ensures |vs| == |cs| && forall i :: 0 <= i < |cs| ==> vs[i] == cs[i].value
  {
    seq(|cs|, i requires 0 <= i < |cs| => cs[i].value)
  }

  /** The form choices: the prompt first, then one (v, v) pair per version in ascending order. */
  function VersionChoices(versions: seq<string>): (c: seq<Choice>)
    ensures |c| == |versions| + 1
    ensures c[0] == ChoosePrompt
    ensures forall i :: 1 <= i < |c| ==> c[i].display == c[i].value
    ensures Text.SortedStrings(ChoiceValues(c[1..]))
    ensures multiset(ChoiceValues(c[1..])) == multiset(versions)
  {
    var sorted := Text.SortStrings(versions);
    var c := [ChoosePrompt] + seq(|sorted|, i requires 0 <= i < |sorted| => Choice(sorted[i], sorted[i]));
    assert ChoiceValues(c[1..]) == sorted;
    assert |sorted| == |multiset(sorted)| == |multiset(versions)| == |versions|;
    c
  }

  /** The `API_VERSION` sort key of every scanned version, in order; sorting keys of other types is not modelled. */
  function VersionKeys(items: seq<Json>): (r: Result<seq<string>, Error>)
    ensures r.Ok? ==> |r.value| == |items|
    ensures r.Ok? ==> forall i :: 0 <= i < |items| ==> PyIndex(items[i], "API_VERSION") == Ok(JStr(r.value[i]))
    ensures (forall i :: 0 <= i < |items| ==> PyIndex(items[i], "API_VERSION").Ok? && PyIndex(items[i], "API_VERSION").value.JStr?) ==> r.Ok?
  {
    if |items| == 0 then Ok([])
    else
      match PyIndex(items[0], "API_VERSION")
      case Err(kind) => Err(Crash(kind))
      case Ok(key) =>
        if !key.JStr? then Err(Unmodelled("sorting API_VERSION values that are not strings"))
        else
          match VersionKeys(items[1..])
          case Err(e) => Err(e)
          case Ok(rest) => Ok([key.s] + rest)
  }

  /** `get_api_version_choices`: fetch /api/versions, then list its scanned versions sorted by `API_VERSION`. */
  function GetApiVersionChoices(root: string, send: Request -> Transmission): (r: Result<seq<Choice>, Error>)
    ensures Get(root, VersionsPath, send).Err? ==> r == Err(Get(root, VersionsPath, send).error)
    ensures r.Ok? ==> |r.value| >= 1 && r.value[0] == ChoosePrompt && Text.SortedStrings(ChoiceValues(r.value[1..]))
    ensures r.Ok? ==> forall i :: 1 <= i < |r.value| ==> r.value[i].display == r.value[i].value
  {
    var result :- Get(root, VersionsPath, send);
    var scanned :- PyIndex(result, "scanned_api_versions").MapError((k: PyError) => Crash(k));
    var items :- PyIter(scanned).MapError((k: PyError) => Crash(k));
    var versions :- VersionKeys(items);
    Ok(VersionChoices(versions))
  }

  /** With a well-formed answer the choices are the prompt plus exactly the scanned versions, one each. */
  lemma VersionChoicesOfWellFormedAnswer(root: string, send: Request -> Transmission, items: seq<Json>, versions: seq<string>)
    requires Get(root, VersionsPath, send).Ok?
    requires PyIndex(Get(root, VersionsPath, send).value, "scanned_api_versions") == Ok(JArr(items))
    requires |versions| == |items|
    requires forall i :: 0 <= i < |items| ==> PyIndex(items[i], "API_VERSION") == Ok(JStr(versions[i]))
    ensures var r := GetApiVersionChoices(root, send);
      && r.Ok?
      && |r.value| == |items| + 1
      && multiset(ChoiceValues(r.value[1..])) == multiset(versions)
      && r.value == VersionChoices(versions)
  {
    var keys := VersionKeys(items);
    assert keys.Ok?;
    assert keys.value == versions;
  }
}

=== FILE: client.dfy ===
/**
 * The browser side of the test runner (apitester/runtests/static/runtests/js/runtests.js):
 * the `escapeHTML` rewrite applied to response text, the path a run request is
 * posted to, and the configuration key read from the page address.
 */
module Client {
  import opened Wrappers
  import Text

  // ---------------------------------------------------------------------------
  // escapeHTML
  // ---------------------------------------------------------------------------

  /** A character of the regular-expression class `\w` (no Unicode flag): ASCII letters, digits and `_`. */
  predicate IsWordChar(ch: char) {
    ('A' <= ch <= 'Z') || ('a' <= ch <= 'z') || ('0' <= ch <= '9') || ch == '_'
  }

  /** The four characters `escapeHTML` rewrites. */
  predicate IsSpecial(ch: char) {
    ch == '&' || ch == '<' || ch == '>' || ch == '"'
  }

  /** Text with none of the four characters `escapeHTML` rewrites. */
  predicate Plain(s: string) {
    forall i :: 0 <= i < |s| ==> !IsSpecial(s[i])
  }

  /** `t` starts with an entity body: one or more word characters and then `;`. */
  predicate EntityAhead(t: string) {
    exists k :: 1 <= k < |t| && t[k] == ';' && forall m :: 0 <= m < k ==> IsWordChar(t[m])
  }

  /** The length of the longest run of word characters at the start of `t`. */
  function WordRunLength(t: string): (n: nat)
    ensures n <= |t|
    ensures forall m :: 0 <= m < n ==> IsWordChar(t[m])
    ensures n < |t| ==> !IsWordChar(t[n])
  {
    if |t| > 0 && IsWordChar(t[0]) then 1 + WordRunLength(t[1..]) else 0
  }

  /** The lookahead `(?!\w+;)` fails on `t`: a greedy word run ends in `;`. */
  predicate LookaheadSees(t: string) {
    var n := WordRunLength(t);
    1 <= n < |t| && t[n] == ';'
  }

  /** The greedy scan decides exactly the entity condition. */
  lemma LookaheadIsEntity(t: string)
    ensures LookaheadSees(t) <==> EntityAhead(t)
  {
    var n := WordRunLength(t);
    if EntityAhead(t) {
      var k :| 1 <= k < |t| && t[k] == ';' && forall m :: 0 <= m < k ==> IsWordChar(t[m]);
      assert !IsWordChar(t[k]);
      assert n == k;
    }
  }

  /** The first replacement, `.replace(/&(?!\w+;)/g, '&amp;')`: the lookahead reads the unreplaced text. */
  function AmpPass(s: string): string {
    if |s| == 0 then ""
    else (if s[0] == '&' && !LookaheadSees(s[1..]) then "&amp;" else [s[0]]) + AmpPass(s[1..])
  }

  /** A global replacement of the one character `c` by `rep`. */
  function ReplaceChar(s: string, c: char, rep: string): (r: string)
    ensures c !in rep ==> c !in r
    ensures forall d :: d != c && d !in rep ==> (d in r <==> d in s)
    ensures c !in s ==> r == s
  {
    if |s| == 0 then ""
    else
      var head := if s[0] == c then rep else [s[0]];
      assert s == [s[0]] + s[1..];
      head + ReplaceChar(s[1..], c, rep)
  }

  lemma {:induction false} ReplaceCharAppend(a: string, b: string, c: char, rep: string)
    ensures ReplaceChar(a + b, c, rep) == ReplaceChar(a, c, rep) + ReplaceChar(b, c, rep)
    decreases |a|
  {
    if |a| == 0 {
      assert a + b == b;
    } else {
      assert (a + b)[1..] == a[1..] + b;
      ReplaceCharAppend(a[1..], b, c, rep);
    }
  }

  /** The last three replacements, in order: `<`, then `>`, then `"`. */
  function TagPasses(s: string): string {
    ReplaceChar(ReplaceChar(ReplaceChar(s, '<', "&lt;"), '>', "&gt;"), '"', "&quot;")
  }

  lemma TagPassesAppend(a: string, b: string)
    ensures TagPasses(a + b) == TagPasses(a) + TagPasses(b)
  {
    ReplaceCharAppend(a, b, '<', "&lt;");
    ReplaceCharAppend(ReplaceChar(a, '<', "&lt;"), ReplaceChar(b, '<', "&lt;"), '>', "&gt;");
    var a2 := ReplaceChar(ReplaceChar(a, '<', "&lt;"), '>', "&gt;");
    var b2 := ReplaceChar(ReplaceChar(b, '<', "&lt;"), '>', "&gt;");
    ReplaceCharAppend(a2, b2, '"', "&quot;");
  }

  /** After the last three replacements no tag character or double quote is left. */
  lemma TagPassesRemoveTags(s: string)
    ensures '<' !in TagPasses(s) && '>' !in TagPasses(s) && '"' !in TagPasses(s)
  {
    var a := ReplaceChar(s, '<', "&lt;");
    assert '<' !in a;
    var b := ReplaceChar(a, '>', "&gt;");
    assert '>' !in b && '<' !in b;
    var c := ReplaceChar(b, '"', "&quot;");
    assert '"' !in c && '>' !in c && '<' !in c;
  }

  /** `escapeHTML(s)` for a string argument: the four chained replacements. */
  function EscapeHtml(s: string): (r: string)
    ensures '<' !in r && '>' !in r && '"' !in r
    ensures Plain(s) ==> r == s
  {
    TagPassesRemoveTags(AmpPass(s));
    EscapeHtmlIsReference(s);
    EscapeRefPlain(s);
    TagPasses(AmpPass(s))
  }

  // ---------------------------------------------------------------------------
  // The per-character reading of escapeHTML
  // ---------------------------------------------------------------------------

  /** What the first character of `s` becomes, given what follows it. */
  function EscapeHead(s: string): string
    requires |s| > 0
  {
    match s[0]
    case '&' => if LookaheadSees(s[1..]) then "&" else "&amp;"
    case '<' => "&lt;"
    case '>' => "&gt;"
    case '"' => "&quot;"
    case _ => [s[0]]
  }

  /** Reference reading: each character escaped on its own, in order. */
  function EscapeRef(s: string): (r: string)
    ensures |r| >= |s|
  {
    if |s| == 0 then "" else EscapeHead(s) + EscapeRef(s[1..])
  }

  lemma TagPassesNoTag(t: string)
    requires '<' !in t && '>' !in t && '"' !in t
    ensures TagPasses(t) == t
  {
  }

  lemma ReplaceCharOne(x: char, c: char, rep: string)
    ensures ReplaceChar([x], c, rep) == if x == c then rep else [x]
  {
    assert [x][1..] == [];
  }

  lemma TagPassesHead(s: string)
    requires |s| > 0
    ensures TagPasses(if s[0] == '&' && !LookaheadSees(s[1..]) then "&amp;" else [s[0]]) == EscapeHead(s)
  {
    var c := s[0];
    if c == '&' && !LookaheadSees(s[1..]) {
      TagPassesNoTag("&amp;");
    } else if c == '<' {
      ReplaceCharOne(c, '<', "&lt;");
      TagPassesNoTag("&lt;");
      assert TagPasses([c]) == ReplaceChar(ReplaceChar("&lt;", '>', "&gt;"), '"', "&quot;");
    } else {
      ReplaceCharOne(c, '<', "&lt;");
      ReplaceCharOne(c, '>', "&gt;");
      if c != '>' {
        ReplaceCharOne(c, '"', "&quot;");
      }
    }
  }

  /** The chained replacements agree with the per-character reading on every string. */
  lemma {:induction false} EscapeHtmlIsReference(s: string)
    ensures TagPasses(AmpPass(s)) == EscapeRef(s)
    decreases |s|
  {
    if |s| > 0 {
      var head := if s[0] == '&' && !LookaheadSees(s[1..]) then "&amp;" else [s[0]];
      TagPassesAppend(head, AmpPass(s[1..]));
      TagPassesHead(s);
      EscapeHtmlIsReference(s[1..]);
    }
  }

  lemma {:induction false} EscapeRefPlain(s: string)
    ensures Plain(s) ==> EscapeRef(s) == s
    decreases |s|
  {
    if |s| > 0 && Plain(s) {
      assert Plain(s[1..]) by {
        assert forall i :: 0 <= i < |s[1..]| ==> s[1..][i] == s[i + 1];
      }
      EscapeRefPlain(s[1..]);
    }
  }

  /**
   * escapeHTML read one character at a time: `<`, `>` and `"` become their
   * entities, an `&` survives exactly when a word run and `;` follow it, and
   * every other character is copied; the rest of the string is escaped alone.
   */
  lemma EscapeHtmlCons(c: char, rest: string)
    ensures EscapeHtml([c] + rest) == (
      if c == '&' then (if EntityAhead(rest) then "&" else "&amp;")
      else if c == '<' then "&lt;"
      else if c == '>' then "&gt;"
      else if c == '"' then "&quot;"
      else [c]) + EscapeHtml(rest)
  {
    var s := [c] + rest;
    assert s[1..] == rest;
    LookaheadIsEntity(rest);
    EscapeHtmlIsReference(s);
    EscapeHtmlIsReference(rest);
  }

  /** Text in which nothing is left to escape: no tag characters, and each `&` opens an entity. */
  predicate WellEscaped(t: string) {
    && '<' !in t && '>' !in t && '"' !in t
    && forall i :: 0 <= i < |t| && t[i] == '&' ==> EntityAhead(t[i + 1..])
  }

  lemma EntityAheadExtends(t: string, u: string)
    requires EntityAhead(t)
    ensures EntityAhead(t + u)
  {
    var k :| 1 <= k < |t| && t[k] == ';' && forall m :: 0 <= m < k ==> IsWordChar(t[m]);
    assert (t + u)[k] == ';';
    assert forall m :: 0 <= m < k ==> (t + u)[m] == t[m];
  }

  lemma WellEscapedAppend(a: string, b: string)
    requires WellEscaped(a) && WellEscaped(b)
    ensures WellEscaped(a + b)
  {
    var t := a + b;
    forall i | 0 <= i < |t| && t[i] == '&'
      ensures EntityAhead(t[i + 1..])
    {
      if i < |a| {
        assert a[i] == '&';
        assert t[i + 1..] == a[i + 1..] + b;
        EntityAheadExtends(a[i + 1..], b);
      } else {
        assert b[i - |a|] == '&';
        assert t[i + 1..] == b[i - |a| + 1..];
      }
    }
  }

  /** A word run closed by `;`, preceded by `&`, is a complete entity. */
  lemma EntityIsWellEscaped(t: string, k: nat)
    requires 1 <= k < |t| && t[k] == ';' && forall m :: 0 <= m < k ==> IsWordChar(t[m])
    ensures WellEscaped("&" + t[..k + 1])
  {
    var e := "&" + t[..k + 1];
    forall j | 1 <= j < |e|
      ensures e[j] == t[j - 1] && !IsSpecial(e[j])
    {
      assert IsWordChar(t[j - 1]) || t[j - 1] == ';';
    }
    assert e[1..] == t[..k + 1];
    assert EntityAhead(e[1..]) by {
      assert e[1..][k] == ';';
    }
  }

  /** A character `escapeHTML` leaves alone is copied, and the rest is escaped on its own. */
  lemma EscapeRefPlainCons(s: string)
    requires |s| > 0 && !IsSpecial(s[0])
    ensures EscapeRef(s) == [s[0]] + EscapeRef(s[1..])
  {
    assert EscapeHead(s) == [s[0]];
  }

  lemma PlainTail(p: string)
    requires |p| > 0 && Plain(p)
    ensures !IsSpecial(p[0]) && Plain(p[1..])
  {
    assert forall i :: 0 <= i < |p[1..]| ==> p[1..][i] == p[i + 1];
  }

  lemma SplitFirst(p: string, rest: string, x: string)
    requires |p| > 0
    ensures (p + rest)[0] == p[0] && (p + rest)[1..] == p[1..] + rest
    ensures [p[0]] + (p[1..] + x) == p + x
  {
    assert p == [p[0]] + p[1..];
  }

  /** Plain text in front of anything is copied through unchanged. */
  lemma {:induction false} EscapeRefPlainAppend(p: string, rest: string)
    requires Plain(p)
    ensures EscapeRef(p + rest) == p + EscapeRef(rest)
    decreases |p|
  {
    if |p| == 0 {
      assert p + rest == rest;
    } else {
      PlainTail(p);
      EscapeRefPlainAppend(p[1..], rest);
      SplitFirst(p, rest, EscapeRef(rest));
      EscapeRefPlainCons(p + rest);
    }
  }

  /** One escaped character is already well escaped, unless it is a surviving `&`. */
  lemma EscapeHeadIsWellEscaped(s: string)
    requires |s| > 0 && !(s[0] == '&' && EntityAhead(s[1..]))
    ensures WellEscaped(EscapeHead(s))
  {
    LookaheadIsEntity(s[1..]);
    var h := EscapeHead(s);
    if IsSpecial(s[0]) {
      var body := h[1..];
      assert h == "&" + body;
      assert body[..|body|] == body;
      EntityIsWellEscaped(body, |body| - 1);
    }
  }

  /** An `&` that opens an entity is copied, and the rest is escaped on its own. */
  lemma EscapeRefEntityCons(s: string)
    requires |s| > 0 && s[0] == '&' && EntityAhead(s[1..])
    ensures EscapeRef(s) == "&" + EscapeRef(s[1..])
  {
    LookaheadIsEntity(s[1..]);
    assert EscapeHead(s) == "&";
  }

  lemma EntityBodyPlain(t: string, k: nat)
    requires 1 <= k < |t| && t[k] == ';' && forall m :: 0 <= m < k ==> IsWordChar(t[m])
    ensures Plain(t[..k + 1]) && t[..k + 1] + t[k + 1..] == t
  {
    var pre := t[..k + 1];
    forall m | 0 <= m < |pre|
      ensures !IsSpecial(pre[m])
    {
      assert IsWordChar(t[m]) || t[m] == ';';
    }
  }

  lemma AppendAssoc(a: string, b: string, c: string)
    ensures a + (b + c) == (a + b) + c
  {
  }

  /** A surviving `&` carries its entity body with it into the output. */
  lemma EscapeRefKeptEntity(s: string) returns (k: nat)
    requires |s| > 0 && s[0] == '&' && EntityAhead(s[1..])
    ensures 1 <= k < |s| - 1
    ensures WellEscaped("&" + s[1..][..k + 1])
    ensures EscapeRef(s) == ("&" + s[1..][..k + 1]) + EscapeRef(s[1..][k + 1..])
  {
    var t := s[1..];
    k :| 1 <= k < |t| && t[k] == ';' && forall m :: 0 <= m < k ==> IsWordChar(t[m]);
    EntityBodyPlain(t, k);
    EscapeRefPlainAppend(t[..k + 1], t[k + 1..]);
    EntityIsWellEscaped(t, k);
    EscapeRefEntityCons(s);
    AppendAssoc("&", t[..k + 1], EscapeRef(t[k + 1..]));
  }

  /** Whatever the input, the escaped text has nothing left to escape. */
  lemma {:induction false} EscapeRefIsWellEscaped(s: string)
    ensures WellEscaped(EscapeRef(s))
    decreases |s|
  {
    if |s| > 0 {
      if s[0] == '&' && EntityAhead(s[1..]) {
        var k := EscapeRefKeptEntity(s);
        EscapeRefIsWellEscaped(s[1..][k + 1..]);
        WellEscapedAppend("&" + s[1..][..k + 1], EscapeRef(s[1..][k + 1..]));
      } else {
        EscapeRefIsWellEscaped(s[1..]);
        EscapeHeadIsWellEscaped(s);
        WellEscapedAppend(EscapeHead(s), EscapeRef(s[1..]));
      }
    }
  }

  /** The first character of well-escaped text is copied, and what follows is well escaped too. */
  lemma WellEscapedHead(t: string)
    requires |t| > 0 && WellEscaped(t)
    ensures EscapeHead(t) == [t[0]] && WellEscaped(t[1..])
  {
    if t[0] == '&' {
      LookaheadIsEntity(t[1..]);
    }
    forall i | 0 <= i < |t[1..]| && t[1..][i] == '&'
      ensures EntityAhead(t[1..][i + 1..])
    {
      assert t[1..][i + 1..] == t[i + 2..];
    }
  }

  lemma {:induction false} EscapeRefFixesWellEscaped(t: string)
    requires WellEscaped(t)
    ensures EscapeRef(t) == t
    decreases |t|
  {
    if |t| > 0 {
      WellEscapedHead(t);
      EscapeRefFixesWellEscaped(t[1..]);
      assert t == [t[0]] + t[1..];
    }
  }

  /** The output of escapeHTML is exactly the set of strings it leaves alone. */
  lemma EscapeHtmlFixedPoints(t: string)
    ensures EscapeHtml(t) == t <==> WellEscaped(t)
  {
    EscapeHtmlIsReference(t);
    if WellEscaped(t) {
      EscapeRefFixesWellEscaped(t);
    }
    EscapeRefIsWellEscaped(t);
  }

  /** Escaping twice is escaping once: the `&` replacement runs first and spares entities. */
  lemma EscapeHtmlIdempotent(s: string)
    ensures EscapeHtml(EscapeHtml(s)) == EscapeHtml(s)
  {
    EscapeHtmlIsReference(s);
    EscapeRefIsWellEscaped(s);
    EscapeHtmlFixedPoints(EscapeHtml(s));
  }

  // ---------------------------------------------------------------------------
  // Run path and configuration key
  // ---------------------------------------------------------------------------

  /** The four pieces `runTest` puts into a run request's path. */
  datatype RunTarget = RunTarget(testMethod: string, urlpath: string, configPk: string, operationId: string)

  /** `'run/' + testmethod + "/" + path + "/" + testconfig_pk + "/" + operationId`. */
  function RunPath(t: RunTarget): (p: string)
    ensures Text.StartsWith(p, "run/")
    ensures |p| == 7 + |t.testMethod| + |t.urlpath| + |t.configPk| + |t.operationId|
  {
    "run/" + t.testMethod + "/" + t.urlpath + "/" + t.configPk + "/" + t.operationId
  }

  /** A segment that the slash-separated run path can carry unambiguously. */
  predicate Segment(s: string) {
    '/' !in s
  }

  /** Cuts `s` at its first `/`. */
  function FirstSegment(s: string): (r: Option<(string, string)>)
    ensures r.None? <==> '/' !in s
    ensures r.Some? ==> s == r.value.0 + "/" + r.value.1 && Segment(r.value.0)
  {
    if |s| == 0 then None
    else if s[0] == '/' then
      assert s == [] + "/" + s[1..];
      Some(([], s[1..]))
    else
      assert s == [s[0]] + s[1..];
      match FirstSegment(s[1..])
      case None => None
      case Some((a, b)) =>
        assert [s[0]] + (a + "/" + b) == ([s[0]] + a) + "/" + b;
        Some(([s[0]] + a, b))
  }

  /** Cuts `s` at its last `/`. */
  function LastSegment(s: string): (r: Option<(string, string)>)
    ensures r.None? <==> '/' !in s
    ensures r.Some? ==> s == r.value.0 + "/" + r.value.1 && Segment(r.value.1)
  {
    if |s| == 0 then None
    else
      var last := s[|s| - 1];
      var init := s[..|s| - 1];
      assert s == init + [last];
      if last == '/' then
        Some((init, []))
      else
        match LastSegment(init)
        case None => None
        case Some((a, b)) =>
          assert (a + "/" + b) + [last] == a + "/" + (b + [last]);
          Some((a, b + [last]))
  }

  lemma {:induction false} FirstSegmentOf(a: string, b: string)
    requires Segment(a)
    ensures FirstSegment(a + "/" + b) == Some((a, b))
    decreases |a|
  {
    var s := a + "/" + b;
    if |a| == 0 {
      assert s[0] == '/' && s[1..] == b;
    } else {
      assert s[0] == a[0] && s[1..] == a[1..] + "/" + b;
      FirstSegmentOf(a[1..], b);
      assert [a[0]] + a[1..] == a;
    }
  }

  lemma {:induction false} LastSegmentOf(a: string, b: string)
    requires Segment(b)
    ensures LastSegment(a + "/" + b) == Some((a, b))
    decreases |b|
  {
    var s := a + "/" + b;
    if |b| == 0 {
      assert s[|s| - 1] == '/' && s[..|s| - 1] == a;
    } else {
      var init := b[..|b| - 1];
      assert s[|s| - 1] == b[|b| - 1] && s[..|s| - 1] == a + "/" + init;
      LastSegmentOf(a, init);
      assert init + [b[|b| - 1]] == b;
    }
  }

  /**
   * Reads a run path back: the method ends at the first `/` after `run/`, the
   * operation id and the configuration key are the last two segments, and the
   * URL path is what lies between.
   */
  function ParseRunPath(p: string): (r: Option<RunTarget>)
    ensures r.Some? ==> Segment(r.value.testMethod) && Segment(r.value.configPk) && Segment(r.value.operationId)
  {
    if !Text.StartsWith(p, "run/") then None
    else
      match FirstSegment(p[4..])
      case None => None
      case Some((testMethod, afterMethod)) =>
        match LastSegment(afterMethod)
        case None => None
        case Some((beforeOp, operationId)) =>
          match LastSegment(beforeOp)
          case None => None
          case Some((urlpath, configPk)) => Some(RunTarget(testMethod, urlpath, configPk, operationId))
  }

  /** The run path grouped segment by segment. */
  lemma RunPathNested(t: RunTarget)
    ensures RunPath(t) == "run/" + (t.testMethod + "/" + ((t.urlpath + "/" + t.configPk) + "/" + t.operationId))
  {
  }

  /** A run path gives back its method, URL path, configuration key and operation id when those three have no `/`. */
  lemma RunPathRoundTrip(t: RunTarget)
    requires Segment(t.testMethod) && Segment(t.configPk) && Segment(t.operationId)
    ensures ParseRunPath(RunPath(t)) == Some(t)
  {
    var p := RunPath(t);
    var beforeOp := t.urlpath + "/" + t.configPk;
    var afterMethod := beforeOp + "/" + t.operationId;
    RunPathNested(t);
    assert p[4..] == t.testMethod + "/" + afterMethod;
    FirstSegmentOf(t.testMethod, afterMethod);
    LastSegmentOf(beforeOp, t.operationId);
    LastSegmentOf(t.urlpath, t.configPk);
  }

  /** The three cuts a successful parse made, and the target it built from them. */
  lemma ParseRunPathCuts(p: string) returns (first: (string, string), last: (string, string), middle: (string, string))
    requires ParseRunPath(p).Some?
    ensures |p| >= 4 && p == "run/" + p[4..]
    ensures p[4..] == first.0 + "/" + first.1
    ensures first.1 == last.0 + "/" + last.1
    ensures last.0 == middle.0 + "/" + middle.1
    ensures ParseRunPath(p).value == RunTarget(first.0, middle.0, middle.1, last.1)
  {
    assert Text.StartsWith(p, "run/");
    var f := FirstSegment(p[4..]);
    assert f.Some?;
    first := f.value;
    var l := LastSegment(first.1);
    assert l.Some?;
    last := l.value;
    var m := LastSegment(last.0);
    assert m.Some?;
    middle := m.value;
    assert p[..4] == "run/";
  }

  /** Whatever a path parses into is rebuilt into that same path. */
  lemma ParseRunPathRebuilds(p: string)
    requires ParseRunPath(p).Some?
    ensures RunPath(ParseRunPath(p).value) == p
  {
    var first, last, middle := ParseRunPathCuts(p);
    RunPathNested(ParseRunPath(p).value);
  }

  /** `location.href.substr(location.href.lastIndexOf('/') + 1)`. */
  function ConfigPk(href: string): (r: string)
    ensures Segment(r)
    ensures |r| <= |href| && href[|href| - |r|..] == r
    ensures |r| < |href| ==> href[|href| - |r| - 1] == '/'
  {
    var r := href[Text.LastIndexOf(href, '/') + 1..];
    assert forall m :: 0 <= m < |r| ==> r[m] == href[Text.LastIndexOf(href, '/') + 1 + m];
    r
  }

  /** The run buttons and test list are shown when the key is a non-empty string. */
  predicate ShowsRunUi(href: string) {
    |ConfigPk(href)| > 0
  }

  /** The run UI is shown exactly when the address does not end in `/`. */
  lemma ShowsRunUiIff(href: string)
    ensures ShowsRunUi(href) <==> |href| > 0 && href[|href| - 1] != '/'
  {
  }

  /** The address the configuration selector navigates to; both branches of the source give index + key. */
  function SelectTarget(indexUrl: string, configPk: string): (r: string)
    ensures r == indexUrl + configPk
  {
    if |configPk| > 0 then indexUrl + configPk else indexUrl
  }

  /** Choosing a configuration leads to a page whose key is that configuration's. */
  lemma SelectThenRead(indexUrl: string, configPk: string)
    requires Segment(configPk)
    requires |indexUrl| > 0 && indexUrl[|indexUrl| - 1] == '/'
    ensures ConfigPk(SelectTarget(indexUrl, configPk)) == configPk
    ensures ShowsRunUi(SelectTarget(indexUrl, configPk)) <==> |configPk| > 0
  {
    var href := SelectTarget(indexUrl, configPk);
    assert href == indexUrl[..|indexUrl| - 1] + ['/'] + configPk;
    Text.LastIndexBetween(indexUrl[..|indexUrl| - 1], '/', configPk);
  }
}

=== FILE: json.dfy ===
/**
 * Parsed JSON values as Python sees them after `response.json()`, and the few
 * Python operations the system applies to them without checking their type:
 * truthiness, `key in value`, `value[key]` and iteration. Each operation
 * either gives the Python result or names the exception Python raises.
 */
module Json {
  import opened Wrappers
  import Text

  /**
   * A JSON value. An object keeps its members in insertion order, as a Python
   * dict does; lookups take the first member with the key, which is the only
   * one when the keys are distinct (see `DistinctKeys`). Numbers are integers.
   */
  datatype Json =
    | JNull
    | JBool(b: bool)
    | JNum(n: int)
    | JStr(s: string)
    | JArr(items: seq<Json>)
    | JObj(fields: seq<(string, Json)>)

  /** The built-in exceptions the modelled code can raise without catching them. */
  datatype PyError =
    | TypeError
    | KeyError
    | IndexError
    | ValueError
    | AttributeError
    | UnboundLocalError

  /** Python truthiness: `None`, `False`, `0` and empty strings, lists and dicts are false. */
  predicate Truthy(j: Json) {
    match j
    case JNull => false
    case JBool(b) => b
    case JNum(n) => n != 0
    case JStr(s) => |s| > 0
    case JArr(items) => |items| > 0
    case JObj(fields) => |fields| > 0
  }

  predicate HasKey(fields: seq<(string, Json)>, key: string) {
    exists i :: 0 <= i < |fields| && fields[i].0 == key
  }

  /** The value of the first member named `key`. */
  function Lookup(fields: seq<(string, Json)>, key: string): (v: Json)
    requires HasKey(fields, key)
    ensures exists i :: 0 <= i < |fields| && fields[i] == (key, v)
  {
    if fields[0].0 == key then fields[0].1 else Lookup(fields[1..], key)
  }

  /** The members of a Python dict: no key occurs twice. */
  predicate DistinctKeys(fields: seq<(string, Json)>) {
    forall i, j :: 0 <= i < j < |fields| ==> fields[i].0 != fields[j].0
  }

  /** With distinct keys, looking a member's key up gives that member's value. */
  lemma {:induction false} LookupDistinct(fields: seq<(string, Json)>, i: int)
    requires DistinctKeys(fields) && 0 <= i < |fields|
    ensures HasKey(fields, fields[i].0) && Lookup(fields, fields[i].0) == fields[i].1
    decreases i
  {
    if i > 0 {
      var rest := fields[1..];
      assert fields[0].0 != fields[i].0;
      assert rest[i - 1] == fields[i];
      assert DistinctKeys(rest) by {
        forall a, b | 0 <= a < b < |rest|
          ensures rest[a].0 != rest[b].0
        {
          assert rest[a] == fields[a + 1] && rest[b] == fields[b + 1];
        }
      }
      LookupDistinct(rest, i - 1);
    }
  }

  /**
   * Python `key in container` with a string `key`: a key test on a dict,
   * membership on a list, a substring test on a string, and a TypeError on
   * anything that is not a container.
   */
  function PyContains(container: Json, key: string): (r: Result<bool, PyError>)
    ensures r.Err? <==> container.JNull? || container.JBool? || container.JNum?
    ensures r.Err? ==> r.error == TypeError
    ensures container.JObj? ==> r == Ok(HasKey(container.fields, key))
    ensures container.JStr? ==> r == Ok(Text.Contains(container.s, key))
    ensures container.JArr? ==> r == Ok(JStr(key) in container.items)
  {
    match container
    case JObj(fields) => Ok(HasKey(fields, key))
    case JArr(items) => Ok(JStr(key) in items)
    case JStr(s) => Ok(Text.Contains(s, key))
    case _ => Err(TypeError)
  }

  /** Python `container[key]` with a string `key`: only a dict that has the key yields a value. */
  function PyIndex(container: Json, key: string): (r: Result<Json, PyError>)
    ensures r.Ok? <==> container.JObj? && HasKey(container.fields, key)
    ensures r.Ok? ==> exists i :: 0 <= i < |container.fields| && container.fields[i] == (key, r.value)
    ensures container.JObj? && r.Err? ==> r.error == KeyError
    ensures !container.JObj? ==> r == Err(TypeError)
  {
    match container
    case JObj(fields) => if HasKey(fields, key) then Ok(Lookup(fields, key)) else Err(KeyError)
    case _ => Err(TypeError)
  }

  /**
   * Python iteration over a value: the items of a list, the keys of a dict,
   * the one-character strings of a string; anything else is not iterable.
   */
  function PyIter(container: Json): (r: Result<seq<Json>, PyError>)
    ensures r.Err? <==> container.JNull? || container.JBool? || container.JNum?
    ensures container.JArr? ==> r == Ok(container.items)
    ensures container.JObj? ==>
              && r.Ok? && |r.value| == |container.fields|
              && forall i :: 0 <= i < |r.value| ==> r.value[i] == JStr(container.fields[i].0)
    ensures container.JStr? ==>
              && r.Ok? && |r.value| == |container.s|
              && forall i :: 0 <= i < |r.value| ==> r.value[i] == JStr([container.s[i]])
  {
    match container
    case JArr(items) => Ok(items)
    case JObj(fields) => Ok(seq(|fields|, i requires 0 <= i < |fields| => JStr(fields[i].0)))
    case JStr(s) => Ok(seq(|s|, i requires 0 <= i < |s| => JStr([s[i]])))
    case _ => Err(TypeError)
  }

  /**
   * `in` falls back on iteration: it raises exactly where iteration raises, and
   * on a list, a dict, or a string with a one-character key it is membership in
   * what iteration yields.
   */
  lemma ContainsIsIterationMembership(container: Json, key: string)
    ensures PyContains(container, key).Err? <==> PyIter(container).Err?
    ensures container.JArr? || container.JObj? || (container.JStr? && |key| == 1) ==>
              PyContains(container, key) == Ok(JStr(key) in PyIter(container).value)
  {
    match container
    case JObj(fields) =>
      var keys := PyIter(container).value;
      if HasKey(fields, key) {
        var i :| 0 <= i < |fields| && fields[i].0 == key;
        assert keys[i] == JStr(key);
      }
    case JStr(s) =>
      if |key| == 1 {
        var chars := PyIter(container).value;
        if Text.Contains(s, key) {
          var i :| 0 <= i <= |s| - |key| && Text.OccursAt(s, key, i);
          assert s[i..i + 1] == key;
          assert chars[i] == JStr(key);
        }
        if JStr(key) in chars {
          var i :| 0 <= i < |chars| && chars[i] == JStr(key);
          assert s[i..i + 1] == [s[i]];
          assert Text.OccursAt(s, key, i);
        }
      }
    case _ =>
  }

  /**
   * `container[key]` yields a value exactly on a dict for which `key in container`
   * holds; with distinct keys it is the value of the member with that key.
   */
  lemma IndexAgreesWithContains(container: Json, key: string)
    ensures PyIndex(container, key).Ok? <==> container.JObj? && PyContains(container, key) == Ok(true)
    ensures container.JObj? && DistinctKeys(container.fields) ==>
              forall i :: 0 <= i < |container.fields| && container.fields[i].0 == key ==>
                PyIndex(container, key) == Ok(container.fields[i].1)
  {
    if container.JObj? && DistinctKeys(container.fields) {
      forall i | 0 <= i < |container.fields| && container.fields[i].0 == key
        ensures PyIndex(container, key) == Ok(container.fields[i].1)
      {
        LookupDistinct(container.fields, i);
      }
    }
  }
}

=== FILE: models.dfy ===
/**
 * The two persistent records of apitester/runtests/models.py: a test
 * configuration (name, API version, owner and seventeen optional
 * substitution values) and a profile operation (one saved request body of a
 * test profile). The database is a pair of maps from primary key to row; the
 * only constraints it enforces are those the model declares: NOT NULL on the
 * owner and UNIQUE on the configuration name. Form-level validation
 * (`full_clean`) is modelled separately, as Django keeps it separate.
 */
module Models {
  import opened Wrappers
  import Text

  /** The declared `max_length` of every character field. */
  const MaxLength := 255

  /** The optional substitution fields, from `username` to `consumer_id`, in declaration order. */
  datatype Substitution =
    | Username | BankId | BranchId | AtmId | AccountId | OtherAccountId | ViewId | UserId
    | ProviderId | CustomerId | TransactionId | CounterpartyId | FromCurrencyCode
    | ToCurrencyCode | ProductCode | MeetingId | ConsumerId

  /**
   * A test configuration. `owner` is the owner's user id (NULL when unset); a
   * substitution that is absent from the map is NULL.
   */
  datatype TestConfiguration = TestConfiguration(
    name: string,
    apiVersion: string,
    owner: Option<int>,
    substitutions: map<Substitution, string>)

  /**
   * A profile operation. `profileId` is a plain integer, not a reference to a
   * configuration; the optional fields are NULL when `None`.
   */
  datatype ProfileOperation = ProfileOperation(
    profileId: int,
    operationId: Option<string>,
    jsonBody: string,
    order: int,
    urlpath: Option<string>,
    replicaId: int,
    remark: Option<string>,
    isDeleted: int)

  /**
   * `TestConfiguration(owner_id=…, name=…, api_version=…)`: unset character
   * fields that may not be NULL start as the empty string, nullable ones as NULL.
   */
  function NewConfiguration(owner: Option<int>, name: string := "", apiVersion: string := ""): (c: TestConfiguration)
    ensures c.owner == owner && c.name == name && c.apiVersion == apiVersion
    ensures forall f :: f !in c.substitutions
  {
    TestConfiguration(name, apiVersion, owner, map[])
  }

  /** `ProfileOperation(profile_id=…)` with the declared defaults for order, replica and deletion flag. */
  function NewProfileOperation(profileId: int, jsonBody: string := "", operationId: Option<string> := None,
                               urlpath: Option<string> := None, remark: Option<string> := None): (op: ProfileOperation)
    ensures op.order == 100 && op.replicaId == 1 && op.isDeleted == 0
    ensures op.profileId == profileId && op.operationId == operationId && op.jsonBody == jsonBody
    ensures op.urlpath == urlpath && op.remark == remark
  {
    ProfileOperation(profileId, operationId, jsonBody, 100, urlpath, 1, remark, 0)
  }

  // ---------------------------------------------------------------------------
  // The configuration table
  // ---------------------------------------------------------------------------

  datatype ConfigTable = ConfigTable(rows: map<nat, TestConfiguration>, nextId: nat)

  /** Some row other than `except` already carries `name`. */
  predicate NameTaken(t: ConfigTable, name: string, except: Option<nat>) {
    exists id :: id in t.rows && t.rows[id].name == name && except != Some(id)
  }

  /** The table's constraints: keys below the id counter, owners set, names unique. */
  predicate Valid(t: ConfigTable) {
    && (forall id :: id in t.rows ==> id < t.nextId && t.rows[id].owner.Some?)
    && (forall i, j :: i in t.rows && j in t.rows && t.rows[i].name == t.rows[j].name ==> i == j)
  }

  function EmptyTable(): (t: ConfigTable)
    ensures Valid(t) && |t.rows| == 0
  {
    ConfigTable(map[], 0)
  }

  /** The database constraint a rejected save violated. */
  datatype Violation = OwnerIsNull | NameNotUnique

  datatype Saved = Saved(table: ConfigTable, outcome: Result<nat, Violation>)

  /**
   * `save()`: without a key the row is inserted under a fresh one; with a key
   * the row at that key is written (an insert when there is none). The owner
   * must be set and no other row may have the same name; a rejected save
   * leaves the table as it was.
   */
  function Save(t: ConfigTable, pk: Option<nat>, c: TestConfiguration): (s: Saved)
    requires Valid(t)
    ensures Valid(s.table)
    ensures s.outcome.Err? <==> c.owner.None? || NameTaken(t, c.name, pk)
    ensures s.outcome.Err? ==> s.table == t
    ensures c.owner.None? ==> s.outcome == Err(OwnerIsNull)
    ensures s.outcome.Ok? ==>
              && s.table.rows == t.rows[s.outcome.value := c]
              && (pk.Some? ==> s.outcome.value == pk.value)
              && (pk.None? ==> s.outcome.value !in t.rows)
  {
    if c.owner.None? then Saved(t, Err(OwnerIsNull))
    else if NameTaken(t, c.name, pk) then Saved(t, Err(NameNotUnique))
    else
      var id := pk.GetOr(t.nextId);
      var next := if id < t.nextId then t.nextId else id + 1;
      Saved(ConfigTable(t.rows[id := c], next), Ok(id))
  }

  /** `delete()`: the row goes; nothing else in the table changes. */
  function Delete(t: ConfigTable, id: nat): (r: ConfigTable)
    requires Valid(t)
    ensures Valid(r)
    ensures id !in r.rows
    ensures forall k :: k != id ==> (k in r.rows <==> k in t.rows) && (k in r.rows ==> r.rows[k] == t.rows[k])
  {
    ConfigTable(t.rows - {id}, t.nextId)
  }

  /** Inserting a name that is already stored is refused, whatever else the new row holds. */
  lemma DuplicateNameRejected(t: ConfigTable, id: nat, c: TestConfiguration)
    requires Valid(t) && id in t.rows && c.name == t.rows[id].name
    ensures Save(t, None, c).outcome.Err?
    ensures Save(t, None, c).table == t
  {
  }

  /** After any successful save, the saved name names exactly one row. */
  lemma SavedNameIsUnique(t: ConfigTable, pk: Option<nat>, c: TestConfiguration)
    requires Valid(t)
    requires Save(t, pk, c).outcome.Ok?
    ensures var s := Save(t, pk, c);
      forall id :: id in s.table.rows && s.table.rows[id].name == c.name <==> id == s.outcome.value
  {
  }

  // ---------------------------------------------------------------------------
  // Form-level validation (full_clean)
  // ---------------------------------------------------------------------------

  datatype Field = Name | ApiVersion | Owner | Sub(which: Substitution)

  datatype FieldError = Blank(field: Field) | TooLong(field: Field) | Null(field: Field) | NotUnique(field: Field)

  /**
   * The name's checks: non-blank, at most `max_length`, and `unique=True`. The
   * uniqueness check only runs on a name that passed the field checks, since
   * `validate_unique` skips the fields `clean_fields` rejected.
   */
  function NameErrors(t: ConfigTable, pk: Option<nat>, name: string): (errs: set<FieldError>)
    ensures forall e :: e in errs ==> e.field == Name && !e.Null?
    ensures Blank(Name) in errs <==> name == ""
    ensures TooLong(Name) in errs <==> |name| > MaxLength
    ensures NotUnique(Name) in errs <==> name != "" && |name| <= MaxLength && NameTaken(t, name, pk)
  {
    (if name == "" then {Blank(Name)} else {})
    + (if |name| > MaxLength then {TooLong(Name)} else {})
    + (if name != "" && |name| <= MaxLength && NameTaken(t, name, pk) then {NotUnique(Name)} else {})
  }

  /** The API version's checks: non-blank and at most `max_length`; any text is accepted otherwise. */
  function ApiVersionErrors(v: string): (errs: set<FieldError>)
    ensures forall e :: e in errs ==> e.field == ApiVersion && (e.Blank? || e.TooLong?)
    ensures Blank(ApiVersion) in errs <==> v == ""
    ensures TooLong(ApiVersion) in errs <==> |v| > MaxLength
  {
    (if v == "" then {Blank(ApiVersion)} else {})
    + (if |v| > MaxLength then {TooLong(ApiVersion)} else {})
  }

  /** The substitutions' only check is `max_length`; NULL and blank are allowed. */
  function SubstitutionErrors(subs: map<Substitution, string>): (errs: set<FieldError>)
    ensures forall e :: e in errs ==> e.TooLong? && e.field.Sub?
    ensures forall s :: TooLong(Sub(s)) in errs <==> s in subs && |subs[s]| > MaxLength
  {
    set s | s in subs && |subs[s]| > MaxLength :: TooLong(Sub(s))
  }

  /**
   * The errors `full_clean()` reports before saving at key `pk`: name and API
   * version must be non-blank, the owner must be set, every character value
   * must fit `max_length`, and a name that passes those checks must not be
   * stored under another key. Substitutions may be NULL or blank.
   */
  function CleanErrors(t: ConfigTable, pk: Option<nat>, c: TestConfiguration): (errs: set<FieldError>)
    ensures Blank(Name) in errs <==> c.name == ""
    ensures TooLong(Name) in errs <==> |c.name| > MaxLength
    ensures NotUnique(Name) in errs <==> c.name != "" && |c.name| <= MaxLength && NameTaken(t, c.name, pk)
    ensures Blank(ApiVersion) in errs <==> c.apiVersion == ""
    ensures TooLong(ApiVersion) in errs <==> |c.apiVersion| > MaxLength
    ensures Null(Owner) in errs <==> c.owner.None?
    ensures forall s :: Blank(Sub(s)) !in errs && Null(Sub(s)) !in errs
    ensures forall s :: TooLong(Sub(s)) in errs <==> s in c.substitutions && |c.substitutions[s]| > MaxLength
  {
    NameErrors(t, pk, c.name)
    + ApiVersionErrors(c.apiVersion)
    + (if c.owner.None? then {Null(Owner)} else {})
    + SubstitutionErrors(c.substitutions)
  }

  /** A configuration that passes validation is always accepted by the table. */
  lemma CleanConfigurationSaves(t: ConfigTable, pk: Option<nat>, c: TestConfiguration)
    requires Valid(t)
    requires CleanErrors(t, pk, c) == {}
    ensures Save(t, pk, c).outcome.Ok?
  {
    assert Null(Owner) !in CleanErrors(t, pk, c);
    assert NotUnique(Name) !in CleanErrors(t, pk, c);
  }

  /**
   * Owner, name and API version alone make a valid configuration, and the API
   * version is free text: `Fred` with version `3.0.1` is accepted into an empty table.
   */
  lemma MinimalConfigurationSaves()
    ensures var c := NewConfiguration(Some(1), "Fred", "3.0.1");
      && CleanErrors(EmptyTable(), None, c) == {}
      && Save(EmptyTable(), None, c).outcome == Ok(0)
  {
    var c := NewConfiguration(Some(1), "Fred", "3.0.1");
    assert SubstitutionErrors(c.substitutions) == {};
  }

  // ---------------------------------------------------------------------------
  // Profile operations
  // ---------------------------------------------------------------------------

  datatype OpTable = OpTable(rows: map<nat, ProfileOperation>, nextId: nat)

  predicate OpsValid(t: OpTable) {
    forall id :: id in t.rows ==> id < t.nextId
  }

  /** Inserting a profile operation never fails: nothing about it is declared unique. */
  function InsertOperation(t: OpTable, op: ProfileOperation): (r: (OpTable, nat))
    requires OpsValid(t)
    ensures OpsValid(r.0)
    ensures r.1 !in t.rows && r.0.rows == t.rows[r.1 := op]
  {
    (OpTable(t.rows[t.nextId := op], t.nextId + 1), t.nextId)
  }

  /** The same (profile, operation, replica) triple can be stored twice, under two keys. */
  lemma DuplicateTriplesAccepted(t: OpTable, op: ProfileOperation)
    requires OpsValid(t)
    ensures var (t1, a) := InsertOperation(t, op);
      var (t2, b) := InsertOperation(t1, op);
      && a != b && a in t2.rows && b in t2.rows
      && t2.rows[a].profileId == t2.rows[b].profileId
      && t2.rows[a].operationId == t2.rows[b].operationId
      && t2.rows[a].replicaId == t2.rows[b].replicaId
  {
  }

  datatype Database = Database(configs: ConfigTable, operations: OpTable)

  /** Deleting a configuration leaves every profile operation in place, including those that name it. */
  function DeleteConfiguration(db: Database, id: nat): (r: Database)
    requires Valid(db.configs)
    ensures Valid(r.configs) && id !in r.configs.rows
    ensures r.operations == db.operations
  {
    db.(configs := Delete(db.configs, id))
  }

  // ---------------------------------------------------------------------------
  // String forms
  // ---------------------------------------------------------------------------

  /** `str(test_configuration)`: its name. */
  function ConfigurationText(c: TestConfiguration): string {
    c.name
  }

  /** A stored configuration is identified by its text: distinct rows print differently. */
  lemma ConfigurationTextIdentifies(t: ConfigTable, i: nat, j: nat)
    requires Valid(t) && i in t.rows && j in t.rows && i != j
    ensures ConfigurationText(t.rows[i]) != ConfigurationText(t.rows[j])
  {
  }

  /** Python's `'{}'.format(x)` of an optional string: `None` prints as `None`. */
  function OptionalText(o: Option<string>): string {
    o.GetOr("None")
  }

  /** The second line of `str(profile_operation)`. */
  function OperationLine(o: string): string {
    "operationid:\t" + o + "\n"
  }

  /** `str(profile_operation)`: `profile_id:<tab>{}<newline>operationid:<tab>{}<newline>`. */
  function OperationText(op: ProfileOperation): (r: string)
    ensures Text.StartsWith(r, "profile_id:\t") && r[|r| - 1] == '\n'
  {
    "profile_id:\t" + (Text.IntToDecimal(op.profileId) + "\n" + OperationLine(OptionalText(op.operationId)))
  }

  /** Text that `ParseInt` can read: an optional minus sign and digits. */
  predicate IsIntText(s: string) {
    && |s| >= 1
    && (s[0] == '-' ==> Text.AllDigits(s[1..]))
    && (s[0] != '-' ==> Text.AllDigits(s))
  }

  /** Reads the second line, `operationid:<tab>…<newline>`, back to its value. */
  function ParseOperationLine(line: string): (r: Option<string>)
  {
    if |line| < 14 || !Text.StartsWith(line, "operationid:\t") || line[|line| - 1] != '\n' then None
    else Some(line[13..|line| - 1])
  }

  /** Reads the profile id and the operation id text back from `str(profile_operation)`. */
  function ParseOperationText(s: string): (r: Option<(int, string)>)
  {
    if !Text.StartsWith(s, "profile_id:\t") then None
    else
      var rest := s[12..];
      var i := Text.IndexOf(rest, "\n");
      if i < 0 || !IsIntText(rest[..i]) then None
      else
        match ParseOperationLine(rest[i + 1..])
        case None => None
        case Some(o) => Some((Text.ParseInt(rest[..i]), o))
  }

  lemma ParseOperationLineOf(o: string)
    ensures ParseOperationLine(OperationLine(o)) == Some(o)
  {
    var line := OperationLine(o);
    assert line[..13] == "operationid:\t";
    assert line[13..|line| - 1] == o;
  }

  lemma FirstLineOf(d: string, after: string)
    requires '\n' !in d
    ensures var rest := d + "\n" + after;
      Text.IndexOf(rest, "\n") == |d| && rest[..|d|] == d && rest[|d| + 1..] == after
  {
    Text.FirstIndexBetween(d, '\n', after);
  }

  lemma PrefixCut(p: string, x: string)
    ensures Text.StartsWith(p + x, p) && (p + x)[|p|..] == x
  {
    assert (p + x)[..|p|] == p;
  }

  lemma DecimalIsIntText(n: int)
    ensures IsIntText(Text.IntToDecimal(n))
    ensures '\n' !in Text.IntToDecimal(n)
  {
    var d := Text.IntToDecimal(n);
    if n < 0 {
      assert d[1..] == Text.NatToDecimal(-n);
      assert forall m :: 1 <= m < |d| ==> d[m] == d[1..][m - 1];
    }
  }

  /** The parser takes an integer text and any operation text back out of the layout `str()` produces. */
  lemma ParseOperationTextOf(d: string, o: string)
    requires IsIntText(d) && '\n' !in d
    ensures ParseOperationText("profile_id:\t" + (d + "\n" + OperationLine(o))) == Some((Text.ParseInt(d), o))
  {
    var rest := d + "\n" + OperationLine(o);
    PrefixCut("profile_id:\t", rest);
    FirstLineOf(d, OperationLine(o));
    ParseOperationLineOf(o);
  }

  /** The text form of a profile operation gives back its profile id and its operation id's text. */
  lemma OperationTextRoundTrip(op: ProfileOperation)
    ensures ParseOperationText(OperationText(op)) == Some((op.profileId, OptionalText(op.operationId)))
  {
    DecimalIsIntText(op.profileId);
    ParseOperationTextOf(Text.IntToDecimal(op.profileId), OptionalText(op.operationId));
    Text.IntDecimalRoundTrip(op.profileId);
  }
}

=== FILE: runtests.dfy ===
/**
 * The test views of apitester/runtests/views.py, as functions over an explicit
 * test string: the index listing of GET calls, `get_config`, `run_test` and the
 * run view's context, including its messages and success flag.
 */
module RunTests {
  import opened Wrappers
  import opened Json
  import Text
  import Api

  /** One row of the index page's call list. */
  datatype Listed = Listed(urlpath: string, httpMethod: string, summary: Json, responseCode: int)

  /** A test configuration as `get_config` builds it; `responseHas` is an optional substring the payload must contain. */
  datatype TestConfig = TestConfig(urlpath: string, httpMethod: string, responseCode: int, summary: Json, responseHas: Option<string>)

  /** An entry of the run context's message list. */
  datatype Message =
      /** a formatted text */
    | Note(text: string)
      /** the APIError `call` raised, carrying the connection failure's cause */
    | Raised(cause: string)
      /** the `"{}" not in "{}"!` message, keeping the payload rather than its str() rendering */
    | Missing(needle: string, data: Json)

  /** The run view's context: `result` is the parsed payload (its pretty-printing is not modelled). */
  datatype Context = Context(config: Option<TestConfig>, result: Option<Json>, executionTime: int, messages: seq<Message>, success: bool)

  /** The view's outcome together with the description cache it leaves behind. */
  datatype ViewResult<T> = ViewResult(cache: map<string, Json>, outcome: Result<T, Api.Error>)

  const ExpectedStatus := 200

  // ---------------------------------------------------------------------------
  // Walking the description's paths
  // ---------------------------------------------------------------------------

  /** `swagger['paths'].items()`: only a dict under "paths" has items. */
  function PathItems(swagger: Json): (r: Result<seq<(string, Json)>, PyError>)
    ensures r.Ok? <==> PyIndex(swagger, "paths").Ok? && PyIndex(swagger, "paths").value.JObj?
    ensures r.Ok? ==> r.value == PyIndex(swagger, "paths").value.fields
    // the paths, in order, are exactly what iterating `paths` yields
    ensures r.Ok? ==>
              var keys := PyIter(PyIndex(swagger, "paths").value);
              && keys.Ok? && |keys.value| == |r.value|
              && forall i :: 0 <= i < |r.value| ==> keys.value[i] == JStr(r.value[i].0)
  {
    match PyIndex(swagger, "paths")
    case Err(kind) => Err(kind)
    case Ok(paths) => if paths.JObj? then Ok(paths.fields) else Err(AttributeError)
  }

  /** With distinct keys, every pair `items()` yields is a key of `paths` and the value under it. */
  lemma PathItemsIndexable(swagger: Json)
    requires PathItems(swagger).Ok? && DistinctKeys(PathItems(swagger).value)
    ensures var items := PathItems(swagger).value;
      forall i :: 0 <= i < |items| ==> PyIndex(PyIndex(swagger, "paths").value, items[i].0) == Ok(items[i].1)
  {
    var paths := PyIndex(swagger, "paths").value;
    forall i | 0 <= i < |paths.fields|
      ensures PyIndex(paths, paths.fields[i].0) == Ok(paths.fields[i].1)
    {
      IndexAgreesWithContains(paths, paths.fields[i].0);
    }
  }

  /** `method in data` holds for the path item. */
  predicate Offers(item: (string, Json), httpMethod: string) {
    PyContains(item.1, httpMethod) == Ok(true)
  }

  /** Looking up `data[method]['summary']` on a path item cannot raise. */
  predicate SafeLookup(item: (string, Json), httpMethod: string) {
    && PyContains(item.1, httpMethod).Ok?
    && (PyContains(item.1, httpMethod).value ==>
          && PyIndex(item.1, httpMethod).Ok?
          && PyIndex(PyIndex(item.1, httpMethod).value, "summary").Ok?)
  }

  function Summary(item: (string, Json), httpMethod: string): Json
    requires SafeLookup(item, httpMethod) && Offers(item, httpMethod)
  {
    PyIndex(PyIndex(item.1, httpMethod).value, "summary").value
  }

  /** The positions, in order, of the path items at or after `from` that offer `get`. */
  ghost function GetPositions(items: seq<(string, Json)>, from: nat): (idx: seq<nat>)
    requires from <= |items|
    ensures forall k :: 0 <= k < |idx| ==> from <= idx[k] < |items| && Offers(items[idx[k]], "get")
    decreases |items| - from
  {
    if from == |items| then []
    else
      var rest := GetPositions(items, from + 1);
      if Offers(items[from], "get") then
        var idx := [from] + rest;
        assert forall k :: 1 <= k < |idx| ==> idx[k] == rest[k - 1];
        idx
      else rest
  }

  predicate Increasing(s: seq<nat>) {
    forall k, l :: 0 <= k < l < |s| ==> s[k] < s[l]
  }

  /** The positions come in increasing order. */
  lemma {:induction false} GetPositionsIncreasing(items: seq<(string, Json)>, from: nat)
    requires from <= |items|
    ensures Increasing(GetPositions(items, from))
    decreases |items| - from
  {
    if from < |items| {
      GetPositionsIncreasing(items, from + 1);
      var rest := GetPositions(items, from + 1);
      var idx := GetPositions(items, from);
      if Offers(items[from], "get") {
        assert idx == [from] + rest;
        forall k, l | 0 <= k < l < |idx|
          ensures idx[k] < idx[l]
        {
          assert idx[l] == rest[l - 1] && rest[l - 1] > from;
          if k > 0 {
            assert idx[k] == rest[k - 1];
          } else {
            assert idx[k] == from;
          }
        }
      }
    }
  }

  /** Every item at or after `from` that offers `get` has its position listed. */
  lemma {:induction false} GetPositionsComplete(items: seq<(string, Json)>, from: nat, i: nat)
    requires from <= i < |items| && Offers(items[i], "get")
    ensures i in GetPositions(items, from)
    decreases i - from
  {
    var idx := GetPositions(items, from);
    if i == from {
      assert idx[0] == from;
    } else {
      GetPositionsComplete(items, from + 1, i);
      var rest := GetPositions(items, from + 1);
      if Offers(items[from], "get") {
        assert idx == [from] + rest;
        var k :| 0 <= k < |rest| && rest[k] == i;
        assert idx[k + 1] == i;
      }
    }
  }

  /** The index view's loop from position `from`: one entry per path item that has a `get` key. */
  function ListGetCalls(items: seq<(string, Json)>, from: nat): (r: Result<seq<Listed>, PyError>)
    requires from <= |items|
    ensures (forall i :: from <= i < |items| ==> SafeLookup(items[i], "get")) ==> r.Ok?
    ensures r.Ok? ==> forall c :: c in r.value ==> c.httpMethod == "get" && c.responseCode == ExpectedStatus
    decreases |items| - from
  {
    if from == |items| then Ok([])
    else
      var (path, data) := items[from];
      match PyContains(data, "get")
      case Err(kind) => Err(kind)
      case Ok(hasGet) =>
        if !hasGet then ListGetCalls(items, from + 1)
        else
          match PyIndex(data, "get")
          case Err(kind) => Err(kind)
          case Ok(operation) =>
            match PyIndex(operation, "summary")
            case Err(kind) => Err(kind)
            case Ok(summary) =>
              match ListGetCalls(items, from + 1)
              case Err(kind) => Err(kind)
              case Ok(rest) => Ok([Listed(path, "get", summary, ExpectedStatus)] + rest)
  }

  /** `c` is the row the index view lists for a path item with a `get` operation. */
  predicate RowOf(c: Listed, item: (string, Json)) {
    && SafeLookup(item, "get")
    && Offers(item, "get")
    && c == Listed(item.0, "get", Summary(item, "get"), ExpectedStatus)
  }

  /** One step of the listing: the first item is looked up safely, and it adds a row exactly when it offers `get`. */
  lemma ListGetCallsStep(items: seq<(string, Json)>, from: nat)
    requires from < |items| && ListGetCalls(items, from).Ok?
    ensures SafeLookup(items[from], "get") && ListGetCalls(items, from + 1).Ok?
    ensures ListGetCalls(items, from).value ==
              (if Offers(items[from], "get")
               then [Listed(items[from].0, "get", Summary(items[from], "get"), ExpectedStatus)] + ListGetCalls(items, from + 1).value
               else ListGetCalls(items, from + 1).value)
  {
  }

  /** A successful listing has one row per path item that offers `get`, in order, built from that item. */
  lemma {:induction false} ListGetCallsFollowsPositions(items: seq<(string, Json)>, from: nat)
    requires from <= |items| && ListGetCalls(items, from).Ok?
    ensures var r := ListGetCalls(items, from).value;
            var idx := GetPositions(items, from);
            && |r| == |idx|
            && forall k :: 0 <= k < |idx| ==> RowOf(r[k], items[idx[k]])
    decreases |items| - from
  {
    if from < |items| {
      ListGetCallsStep(items, from);
      ListGetCallsFollowsPositions(items, from + 1);
      var rest := ListGetCalls(items, from + 1).value;
      var idxRest := GetPositions(items, from + 1);
      var r := ListGetCalls(items, from).value;
      var idx := GetPositions(items, from);
      if Offers(items[from], "get") {
        var row := Listed(items[from].0, "get", Summary(items[from], "get"), ExpectedStatus);
        assert r == [row] + rest;
        assert idx == [from] + idxRest;
        forall k | 0 <= k < |idx|
          ensures RowOf(r[k], items[idx[k]])
        {
          if k > 0 {
            assert idx[k] == idxRest[k - 1] && r[k] == rest[k - 1];
          }
        }
      } else {
        assert r == rest && idx == idxRest;
      }
    }
  }

  /** `IndexView.get_context_data`: the calls of the default description, fetched through the cache. */
  function IndexView(cache: map<string, Json>, root: string, send: Api.Request -> Api.Transmission): (v: ViewResult<seq<Listed>>)
    ensures var sw := Api.GetSwagger(cache, root, send);
      && v.cache == sw.cache
      && (sw.result.Err? ==> v.outcome == Err(sw.result.error))
      && (v.outcome.Ok? ==> forall c :: c in v.outcome.value ==> c.httpMethod == "get" && c.responseCode == ExpectedStatus)
    // a fetched description is listed by `ListGetCalls` over its paths, Python errors becoming crashes
    ensures var sw := Api.GetSwagger(cache, root, send);
      sw.result.Ok? ==>
        var items := PathItems(sw.result.value);
        && (items.Err? ==> v.outcome == Err(Api.Crash(items.error)))
        && (items.Ok? && ListGetCalls(items.value, 0).Err? ==> v.outcome == Err(Api.Crash(ListGetCalls(items.value, 0).error)))
        && (items.Ok? && ListGetCalls(items.value, 0).Ok? ==> v.outcome == Ok(ListGetCalls(items.value, 0).value))
  {
    var sw := Api.GetSwagger(cache, root, send);
    match sw.result
    case Err(e) => ViewResult(sw.cache, Err(e))
    case Ok(swagger) =>
      match PathItems(swagger)
      case Err(kind) => ViewResult(sw.cache, Err(Api.Crash(kind)))
      case Ok(items) =>
        match ListGetCalls(items, 0)
        case Err(kind) => ViewResult(sw.cache, Err(Api.Crash(kind)))
        case Ok(calls) => ViewResult(sw.cache, Ok(calls))
  }

  // ---------------------------------------------------------------------------
  // get_config
  // ---------------------------------------------------------------------------

  /** `test_method, test_path = test.split(' ')`: exactly two pieces, otherwise ValueError. */
  function SplitTest(test: string): (r: Result<(string, string), PyError>)
    ensures r.Ok? <==> Text.CountChar(test, ' ') == 1
    ensures r.Err? ==> r.error == ValueError
    ensures r.Ok? ==> r.value.0 + " " + r.value.1 == test
    ensures r.Ok? ==> !Text.Contains(r.value.0, " ") && !Text.Contains(r.value.1, " ")
  {
    var parts := Text.Split(test, " ");
    Text.SplitCharCount(test, ' ');
    if |parts| != 2 then Err(ValueError)
    else
      assert parts[1..] == [parts[1]];
      Ok((parts[0], parts[1]))
  }

  /** The loop of `get_config` from position `from`: the first path equal to the test path that offers the method. */
  function FindConfig(items: seq<(string, Json)>, from: nat, testMethod: string, testPath: string): (r: Result<Option<TestConfig>, PyError>)
    requires from <= |items|
    ensures (forall i :: from <= i < |items| && items[i].0 == testPath ==> SafeLookup(items[i], testMethod)) ==> r.Ok?
    ensures r.Ok? && r.value.Some? ==>
              exists i :: from <= i < |items| && items[i].0 == testPath && Offers(items[i], testMethod)
                && SafeLookup(items[i], testMethod)
                && r.value.value == TestConfig(testPath, testMethod, ExpectedStatus, Summary(items[i], testMethod), None)
                && forall j :: from <= j < i ==> !(items[j].0 == testPath && Offers(items[j], testMethod))
    ensures r.Ok? && r.value.None? ==>
              forall i :: from <= i < |items| && items[i].0 == testPath ==> PyContains(items[i].1, testMethod) == Ok(false)
    decreases |items| - from
  {
    if from == |items| then Ok(None)
    else
      var (path, data) := items[from];
      if testPath != path then FindConfig(items, from + 1, testMethod, testPath)
      else
        match PyContains(data, testMethod)
        case Err(kind) => Err(kind)
        case Ok(offered) =>
          if !offered then FindConfig(items, from + 1, testMethod, testPath)
          else
            match PyIndex(data, testMethod)
            case Err(kind) => Err(kind)
            case Ok(operation) =>
              match PyIndex(operation, "summary")
              case Err(kind) => Err(kind)
              case Ok(summary) => Ok(Some(TestConfig(path, testMethod, ExpectedStatus, summary, None)))
  }

  /** `get_config` once the test string is split and the description fetched. */
  function GetConfig(testMethod: string, testPath: string, swagger: Json): (r: Result<Option<TestConfig>, PyError>)
    ensures r.Ok? && r.value.Some? ==>
              && r.value.value.urlpath == testPath && r.value.value.httpMethod == testMethod
              && r.value.value.responseCode == ExpectedStatus && r.value.value.responseHas.None?
    ensures PathItems(swagger).Err? ==> r.Err?
    ensures PathItems(swagger).Ok? ==> r == FindConfig(PathItems(swagger).value, 0, testMethod, testPath)
  {
    match PathItems(swagger)
    case Err(kind) => Err(kind)
    case Ok(items) => FindConfig(items, 0, testMethod, testPath)
  }

  /**
   * With a description whose matching path items can be looked up, `get_config`
   * finds a configuration exactly when the path is a key and the method a key under it.
   */
  lemma GetConfigFindsExactly(items: seq<(string, Json)>, testMethod: string, testPath: string)
    requires forall i :: 0 <= i < |items| && items[i].0 == testPath ==> SafeLookup(items[i], testMethod)
    ensures var r := FindConfig(items, 0, testMethod, testPath);
      && r.Ok?
      && (r.value.Some? <==> exists i :: 0 <= i < |items| && items[i].0 == testPath && Offers(items[i], testMethod))
  {
    var r := FindConfig(items, 0, testMethod, testPath);
    if r.value.None? {
      forall i | 0 <= i < |items| && items[i].0 == testPath
        ensures !Offers(items[i], testMethod)
      {
      }
    }
  }

  // ---------------------------------------------------------------------------
  // Running one test
  // ---------------------------------------------------------------------------

  function NotConfigured(test: string): string {
    "Test " + test + " is not configured!"
  }

  function WrongStatus(expected: int, actual: int): string {
    "Wrong status code (" + Text.IntToDecimal(expected) + " != " + Text.IntToDecimal(actual) + ")!"
  }

  /** The context before anything has run. */
  function InitialContext(config: Option<TestConfig>): (c: Context)
    ensures c.config == config && c.result.None? && c.executionTime == -1
    ensures c.messages == [] && c.success
  {
    Context(config, None, -1, [], true)
  }

  /** Appends one failure message and clears the success flag. */
  function Fail(ctx: Context, msg: Message): Context {
    ctx.(messages := ctx.messages + [msg], success := false)
  }

  /**
   * `run_test`: call the configured path (the bare urlpath, without API_ROOT),
   * record the payload and time, then check the status code and, if configured,
   * the expected substring. Each failing check appends one message and stops.
   */
  function RunTest(ctx: Context, send: Api.Request -> Api.Transmission): (r: Result<Context, Api.Error>)
    requires ctx.config.Some?
    ensures var cfg := ctx.config.value;
      var t := send(Api.OutgoingRequest(cfg.httpMethod, cfg.urlpath, None));
      && (t.ConnectionFailed? ==> r == Ok(Fail(ctx, Raised(t.cause))))
      && (t.Answered? && t.body.None? ==> r == Err(Api.Crash(ValueError)))
      && (t.Answered? && t.body.Some? && t.statusCode != cfg.responseCode ==>
            r == Ok(Fail(ctx.(result := t.body, executionTime := t.elapsedMs), Note(WrongStatus(cfg.responseCode, t.statusCode)))))
      && (t.Answered? && t.body.Some? && t.statusCode == cfg.responseCode && cfg.responseHas.None? ==>
            r == Ok(ctx.(result := t.body, executionTime := t.elapsedMs)))
      && (t.Answered? && t.body.Some? && t.statusCode == cfg.responseCode && cfg.responseHas.Some? ==>
            var ran := ctx.(result := t.body, executionTime := t.elapsedMs);
            var found := PyContains(t.body.value, cfg.responseHas.value);
            && (found.Err? ==> r == Err(Api.Crash(found.error)))
            && (found == Ok(true) ==> r == Ok(ran))
            && (found == Ok(false) ==> r == Ok(Fail(ran, Missing(cfg.responseHas.value, t.body.value)))))
    ensures r.Ok? ==>
              && r.value.config == ctx.config
              && |ctx.messages| <= |r.value.messages| <= |ctx.messages| + 1
              && r.value.messages[..|ctx.messages|] == ctx.messages
              && r.value.success == (ctx.success && |r.value.messages| == |ctx.messages|)
  {
    var cfg := ctx.config.value;
    match Api.Call(cfg.httpMethod, cfg.urlpath, None, send)
    case Err(cause) => Ok(Fail(ctx, Raised(cause)))
    case Ok(response) =>
      match response.body
      case None => Err(Api.Crash(ValueError))
      case Some(payload) =>
        var ran := ctx.(result := Some(payload), executionTime := response.executionTime);
        if response.statusCode != cfg.responseCode then
          Ok(Fail(ran, Note(WrongStatus(cfg.responseCode, response.statusCode))))
        else if cfg.responseHas.Some? then
          match PyContains(payload, cfg.responseHas.value)
          case Err(kind) => Err(Api.Crash(kind))
          case Ok(found) => if found then Ok(ran) else Ok(Fail(ran, Missing(cfg.responseHas.value, payload)))
        else
          Ok(ran)
  }

  /** Without an expected substring, a run records no `not in` message. */
  lemma RunTestWithoutNeedle(ctx: Context, send: Api.Request -> Api.Transmission)
    requires ctx.config.Some? && ctx.config.value.responseHas.None?
    requires forall m :: m in ctx.messages ==> !m.Missing?
    ensures RunTest(ctx, send).Ok? ==> forall m :: m in RunTest(ctx, send).value.messages ==> !m.Missing?
  {
    var t := send(Api.OutgoingRequest(ctx.config.value.httpMethod, ctx.config.value.urlpath, None));
    if t.ConnectionFailed? {
      assert RunTest(ctx, send).value.messages == ctx.messages + [Raised(t.cause)];
    }
  }

  /**
   * `RunView.get_context_data` for the test string `test`: split it, fetch the
   * default description through the cache, look the test up, then run it.
   */
  function RunView(test: string, cache: map<string, Json>, root: string, send: Api.Request -> Api.Transmission): (v: ViewResult<Context>)
    // the test string must hold exactly one space, before anything is fetched
    ensures Text.CountChar(test, ' ') != 1 ==> v == ViewResult(cache, Err(Api.Crash(ValueError)))
    // success is false exactly when a message was recorded, and there is at most one
    ensures v.outcome.Ok? ==>
              && |v.outcome.value.messages| <= 1
              && (v.outcome.value.success <==> |v.outcome.value.messages| == 0)
    // the expected-substring check never fires: no configuration from get_config has one
    ensures v.outcome.Ok? ==> forall m :: m in v.outcome.value.messages ==> !m.Missing?
    ensures v.outcome.Ok? && v.outcome.value.config.None? ==>
              v.outcome.value == Context(None, None, -1, [Note(NotConfigured(test))], false)
    ensures v.outcome.Ok? && v.outcome.value.config.Some? ==>
              var cfg := v.outcome.value.config.value;
              && cfg.httpMethod + " " + cfg.urlpath == test
              && cfg.responseCode == ExpectedStatus && cfg.responseHas.None?
    // a found configuration is run from the initial context
    ensures SplitTest(test).Ok? && Api.GetSwagger(cache, root, send).result.Ok? ==>
              var found := GetConfig(SplitTest(test).value.0, SplitTest(test).value.1, Api.GetSwagger(cache, root, send).result.value);
              found.Ok? && found.value.Some? ==> v.outcome == RunTest(InitialContext(found.value), send)
    // once the test string splits: the cache is the fetch's, a failed fetch or lookup is raised,
    // and a missing configuration renders the not-configured context
    ensures SplitTest(test).Ok? ==>
              var sw := Api.GetSwagger(cache, root, send);
              && v.cache == sw.cache
              && (sw.result.Err? ==> v.outcome == Err(sw.result.error))
              && (sw.result.Ok? ==>
                    var found := GetConfig(SplitTest(test).value.0, SplitTest(test).value.1, sw.result.value);
                    && (found.Err? ==> v.outcome == Err(Api.Crash(found.error)))
                    && (found == Ok(None) ==> v.outcome == Ok(Context(None, None, -1, [Note(NotConfigured(test))], false))))
  {
    match SplitTest(test)
    case Err(kind) => ViewResult(cache, Err(Api.Crash(kind)))
    case Ok((testMethod, testPath)) =>
      var sw := Api.GetSwagger(cache, root, send);
      match sw.result
      case Err(e) => ViewResult(sw.cache, Err(e))
      case Ok(swagger) =>
        match GetConfig(testMethod, testPath, swagger)
        case Err(kind) => ViewResult(sw.cache, Err(Api.Crash(kind)))
        case Ok(config) =>
          var ctx := InitialContext(config);
          if config.None? then ViewResult(sw.cache, Ok(Fail(ctx, Note(NotConfigured(test)))))
          else
            RunTestWithoutNeedle(ctx, send);
            ViewResult(sw.cache, RunTest(ctx, send))
  }

  /** The status-code message names the expected code first and the received one second, both readable back. */
  lemma WrongStatusOrder(expected: int, actual: int)
    ensures var msg := WrongStatus(expected, actual);
      var e := Text.IntToDecimal(expected);
      var a := Text.IntToDecimal(actual);
      && msg == "Wrong status code (" + e + " != " + a + ")!"
      && Text.ParseInt(msg[19..19 + |e|]) == expected
      && Text.ParseInt(msg[19 + |e| + 4..|msg| - 2]) == actual
  {
    var e := Text.IntToDecimal(expected);
    var a := Text.IntToDecimal(actual);
    var msg := WrongStatus(expected, actual);
    assert |"Wrong status code ("| == 19;
    assert msg[19..19 + |e|] == e;
    assert msg[19 + |e| + 4..|msg| - 2] == a;
    Text.IntDecimalRoundTrip(expected);
    Text.IntDecimalRoundTrip(actual);
  }
}

=== FILE: text.dfy ===
/**
 * String primitives the system relies on, stated once: substring search
 * (Python `str.find`, `in` and JavaScript `lastIndexOf`), Python `str.split`,
 * decimal rendering of integers (Python `str(int)`), and Python's ordering of
 * strings as used by `sorted`.
 */
module Text {

  /** `p` occurs in `s` starting at index `i`. */
  predicate OccursAt(s: string, p: string, i: int) {
    0 <= i && i + |p| <= |s| && s[i..i + |p|] == p
  }

  /** Python `p in s` for two strings. */
  predicate Contains(s: string, p: string) {
    exists i | 0 <= i <= |s| - |p| :: OccursAt(s, p, i)
  }

  predicate StartsWith(s: string, p: string) {
    |p| <= |s| && s[..|p|] == p
  }

  /** Lowest index at or after `from` where `p` occurs, or -1. */
  function IndexFrom(s: string, p: string, from: nat): (r: int)
    ensures r == -1 || (from <= r && OccursAt(s, p, r))
    ensures forall j :: from <= j && (r == -1 || j < r) ==> !OccursAt(s, p, j)
    decreases |s| - from
  {
    if from + |p| > |s| then -1
    else if s[from..from + |p|] == p then from
    else IndexFrom(s, p, from + 1)
  }

  /** Python `s.find(p)`: the first index of `p` in `s`, or -1 when it does not occur. */
  function IndexOf(s: string, p: string): (r: int)
    ensures r == -1 <==> !Contains(s, p)
    ensures r != -1 ==> OccursAt(s, p, r) && forall j :: 0 <= j < r ==> !OccursAt(s, p, j)
  {
    IndexFrom(s, p, 0)
  }

  /** JavaScript `s.lastIndexOf(c)` for a one-character needle. */
  function LastIndexOf(s: string, c: char): (r: int)
    ensures -1 <= r < |s|
    ensures r >= 0 ==> s[r] == c
    ensures forall j :: r < j < |s| ==> s[j] != c
  {
    if |s| == 0 then -1
    else if s[|s| - 1] == c then |s| - 1
    else LastIndexOf(s[..|s| - 1], c)
  }

  /** In `a + [c] + b` with no `c` inside `a`, the first `c` is the one between the two. */
  lemma FirstIndexBetween(a: string, c: char, b: string)
    requires c !in a
    ensures IndexOf(a + [c] + b, [c]) == |a|
  {
    var s := a + [c] + b;
    assert OccursAt(s, [c], |a|);
    assert Contains(s, [c]);
    var r := IndexOf(s, [c]);
    assert s[r..r + 1] == [c];
    assert s[r] == c;
    forall j | 0 <= j < |a|
      ensures s[j] != c
    {
      assert s[j] == a[j];
    }
  }

  /** In `a + [c] + b` with no `c` inside `b`, the last `c` is the one between the two. */
  lemma {:induction false} LastIndexBetween(a: string, c: char, b: string)
    requires c !in b
    ensures LastIndexOf(a + [c] + b, c) == |a|
    decreases |b|
  {
    var s := a + [c] + b;
    if |b| == 0 {
      assert s[|s| - 1] == c;
    } else {
      var shorter := b[..|b| - 1];
      assert s[|s| - 1] == b[|b| - 1];
      assert s[..|s| - 1] == a + [c] + shorter;
      assert c !in shorter by {
        assert forall m :: 0 <= m < |shorter| ==> shorter[m] == b[m];
      }
      LastIndexBetween(a, c, shorter);
    }
  }

  function CountChar(s: string, c: char): nat {
    if |s| == 0 then 0 else (if s[0] == c then 1 else 0) + CountChar(s[1..], c)
  }

  /** Inverse of `Split`: the parts glued back together with the separator between them. */
  function Join(parts: seq<string>, sep: string): string {
    if |parts| == 0 then ""
    else if |parts| == 1 then parts[0]
    else parts[0] + sep + Join(parts[1..], sep)
  }

  lemma OccursInPrefix(s: string, p: string, i: int, j: int)
    requires 0 <= i <= |s|
    requires OccursAt(s[..i], p, j)
    ensures OccursAt(s, p, j) && j + |p| <= i
  {
    assert s[..i][j..j + |p|] == s[j..j + |p|];
  }

  /**
   * Python `s.split(sep)` for a non-empty separator, cutting at each leftmost
   * occurrence. The pieces are separator-free and join back to `s`; for a
   * separator that cannot overlap itself, such as `<body>`, `</body>` or " ",
   * no other such list exists.
   */
  function Split(s: string, sep: string): (parts: seq<string>)
    requires |sep| > 0
    ensures |parts| >= 1
    ensures Join(parts, sep) == s
    ensures forall k :: 0 <= k < |parts| ==> !Contains(parts[k], sep)
    decreases |s|
  {
    var i := IndexOf(s, sep);
    if i < 0 then [s]
    else
      var rest := Split(s[i + |sep|..], sep);
      var parts := [s[..i]] + rest;
      assert parts[1..] == rest;
      assert s == s[..i] + sep + s[i + |sep|..] by {
        assert s[i..i + |sep|] == sep;
        assert s == s[..i] + s[i..i + |sep|] + s[i + |sep|..];
      }
      assert !Contains(s[..i], sep) by {
        forall j | OccursAt(s[..i], sep, j)
          ensures false
        {
          OccursInPrefix(s, sep, i, j);
        }
      }
      parts
  }

  /** The first piece of a split is everything before the first separator. */
  lemma SplitHead(s: string, sep: string)
    requires |sep| > 0
    ensures var i := IndexOf(s, sep); Split(s, sep)[0] == if i < 0 then s else s[..i]
  {
  }

  /** The second piece of a split is the first piece of what follows the first separator. */
  lemma SplitSecond(s: string, sep: string)
    requires |sep| > 0 && Contains(s, sep)
    ensures |Split(s, sep)| >= 2
    ensures Split(s, sep)[1] == Split(s[IndexOf(s, sep) + |sep|..], sep)[0]
  {
  }

  lemma {:induction false} CountCharAppend(a: string, b: string, c: char)
    ensures CountChar(a + b, c) == CountChar(a, c) + CountChar(b, c)
    decreases |a|
  {
    if |a| == 0 {
      assert a + b == b;
    } else {
      assert (a + b)[1..] == a[1..] + b;
      CountCharAppend(a[1..], b, c);
    }
  }

  lemma {:induction false} CountCharAbsent(s: string, c: char)
    requires !Contains(s, [c])
    ensures CountChar(s, c) == 0
    decreases |s|
  {
    if |s| > 0 {
      assert s[0] != c by {
        if s[0] == c {
          assert OccursAt(s, [c], 0);
        }
      }
      assert !Contains(s[1..], [c]) by {
        forall j | OccursAt(s[1..], [c], j)
          ensures false
        {
          assert OccursAt(s, [c], j + 1);
        }
      }
      CountCharAbsent(s[1..], c);
    }
  }

  /** Splitting on one character yields one piece more than there are occurrences of it. */
  lemma {:induction false} SplitCharCount(s: string, c: char)
    ensures |Split(s, [c])| == CountChar(s, c) + 1
    decreases |s|
  {
    var i := IndexOf(s, [c]);
    if i < 0 {
      CountCharAbsent(s, c);
    } else {
      SplitCharCount(s[i + 1..], c);
      assert !Contains(s[..i], [c]) by {
        forall j | OccursAt(s[..i], [c], j)
          ensures false
        {
          OccursInPrefix(s, [c], i, j);
        }
      }
      CountCharAbsent(s[..i], c);
      assert s == s[..i] + [c] + s[i + 1..] by {
        assert s[i..i + 1] == [c];
        assert s == s[..i] + s[i..i + 1] + s[i + 1..];
      }
      CountCharAppend(s[..i] + [c], s[i + 1..], c);
      CountCharAppend(s[..i], [c], c);
      assert CountChar([c], c) == 1;
    }
  }

  // ---------------------------------------------------------------------------
  // Decimal rendering of integers (Python `str(int)` / `'{}'.format(int)`)
  // ---------------------------------------------------------------------------

  predicate IsDigit(c: char) {
    '0' <= c <= '9'
  }

  predicate AllDigits(s: string) {
    forall i :: 0 <= i < |s| ==> IsDigit(s[i])
  }

  function DigitChar(d: nat): (c: char)
    requires d < 10
    ensures IsDigit(c) && c as int - '0' as int == d
  {
    (d + '0' as int) as char
  }

  function NatToDecimal(n: nat): (r: string)
    ensures |r| >= 1 && AllDigits(r)
    ensures r[0] == '0' ==> n == 0
  {
    if n < 10 then [DigitChar(n)] else NatToDecimal(n / 10) + [DigitChar(n % 10)]
  }

  function IntToDecimal(i: int): (r: string)
    ensures |r| >= 1
    ensures i >= 0 <==> r[0] != '-'
  {
    if i < 0 then "-" + NatToDecimal(-i) else NatToDecimal(i)
  }

  /** Reads back a run of decimal digits. */
  function ParseDecimal(s: string): nat
    requires AllDigits(s)
  {
    if |s| == 0 then 0
    else ParseDecimal(s[..|s| - 1]) * 10 + (s[|s| - 1] as int - '0' as int)
  }

  function ParseInt(s: string): int
    requires |s| >= 1
    requires s[0] == '-' ==> AllDigits(s[1..])
    requires s[0] != '-' ==> AllDigits(s)
  {
    if s[0] == '-' then -(ParseDecimal(s[1..]) as int) else ParseDecimal(s)
  }

  lemma {:induction false} NatDecimalRoundTrip(n: nat)
    ensures ParseDecimal(NatToDecimal(n)) == n
    decreases n
  {
    var r := NatToDecimal(n);
    if n >= 10 {
      NatDecimalRoundTrip(n / 10);
      assert r[..|r| - 1] == NatToDecimal(n / 10);
    }
  }

  /** Rendering an integer in decimal loses nothing: it reads back as the same integer. */
  lemma IntDecimalRoundTrip(i: int)
    ensures ParseInt(IntToDecimal(i)) == i
  {
    if i < 0 {
      assert IntToDecimal(i)[1..] == NatToDecimal(-i);
      NatDecimalRoundTrip(-i);
    } else {
      NatDecimalRoundTrip(i);
    }
  }

  // ---------------------------------------------------------------------------
  // Python's ordering of strings (code point by code point, a prefix first)
  // ---------------------------------------------------------------------------

  predicate LexLeq(a: string, b: string)
    decreases |a|
  {
    |a| == 0 || (|b| > 0 && (a[0] < b[0] || (a[0] == b[0] && LexLeq(a[1..], b[1..]))))
  }

  lemma {:induction false} LexReflexive(a: string)
    ensures LexLeq(a, a)
    decreases |a|
  {
    if |a| > 0 {
      LexReflexive(a[1..]);
    }
  }

  lemma {:induction false} LexTotal(a: string, b: string)
    ensures LexLeq(a, b) || LexLeq(b, a)
    decreases |a|
  {
    if |a| > 0 && |b| > 0 && a[0] == b[0] {
      LexTotal(a[1..], b[1..]);
    }
  }

  lemma {:induction false} LexTransitive(a: string, b: string, c: string)
    requires LexLeq(a, b) && LexLeq(b, c)
    ensures LexLeq(a, c)
    decreases |a|
  {
    if |a| > 0 && a[0] == b[0] && b[0] == c[0] {
      LexTransitive(a[1..], b[1..], c[1..]);
    }
  }

  lemma {:induction false} LexAntisymmetric(a: string, b: string)
    requires LexLeq(a, b) && LexLeq(b, a)
    ensures a == b
    decreases |a|
  {
    if |a| > 0 {
      LexAntisymmetric(a[1..], b[1..]);
      assert a == [a[0]] + a[1..] && b == [b[0]] + b[1..];
    }
  }

  predicate SortedStrings(s: seq<string>) {
    forall i, j :: 0 <= i < j < |s| ==> LexLeq(s[i], s[j])
  }

  /** Putting a lower bound of a sorted sequence in front keeps it sorted. */
  lemma SortedCons(x: string, s: seq<string>)
    requires SortedStrings(s)
    requires forall k :: 0 <= k < |s| ==> LexLeq(x, s[k])
    ensures SortedStrings([x] + s)
  {
    var r := [x] + s;
    forall i, j | 0 <= i < j < |r|
      ensures LexLeq(r[i], r[j])
    {
      assert r[j] == s[j - 1];
      if i > 0 {
        assert r[i] == s[i - 1];
      }
    }
  }

  /** Anything at most the head of a sorted sequence is at most all of it. */
  lemma LeastOfSorted(x: string, s: seq<string>)
    requires SortedStrings(s) && |s| > 0 && LexLeq(x, s[0])
    ensures forall k :: 0 <= k < |s| ==> LexLeq(x, s[k])
  {
    forall k | 0 <= k < |s|
      ensures LexLeq(x, s[k])
    {
      if k > 0 {
        LexTransitive(x, s[0], s[k]);
      }
    }
  }

  /** A lower bound of `s` and of `x` bounds every arrangement of `s` plus `x`. */
  lemma BoundSurvivesInsert(y: string, x: string, s: seq<string>, t: seq<string>)
    requires forall k :: 0 <= k < |s| ==> LexLeq(y, s[k])
    requires LexLeq(y, x)
    requires multiset(t) == multiset(s) + multiset{x}
    ensures forall k :: 0 <= k < |t| ==> LexLeq(y, t[k])
  {
    forall k | 0 <= k < |t|
      ensures LexLeq(y, t[k])
    {
      assert t[k] in multiset(t);
      if t[k] != x {
        assert t[k] in multiset(s);
        var m :| 0 <= m < |s| && s[m] == t[k];
      }
    }
  }

  function InsertSorted(x: string, s: seq<string>): (r: seq<string>)
    requires SortedStrings(s)
    ensures SortedStrings(r)
    ensures multiset(r) == multiset(s) + multiset{x}
  {
    if |s| == 0 then [x]
    else if LexLeq(x, s[0]) then
      LeastOfSorted(x, s);
      SortedCons(x, s);
      [x] + s
    else
      var rest := s[1..];
      SortedTail(s);
      var tail := InsertSorted(x, rest);
      LexTotal(x, s[0]);
      assert forall k :: 0 <= k < |rest| ==> LexLeq(s[0], rest[k]) by {
        forall k | 0 <= k < |rest|
          ensures LexLeq(s[0], rest[k])
        {
          assert rest[k] == s[k + 1];
        }
      }
      BoundSurvivesInsert(s[0], x, rest, tail);
      SortedCons(s[0], tail);
      assert s == [s[0]] + rest;
      [s[0]] + tail
  }

  /** Python `sorted` on a list of strings (insertion sort). */
  function SortStrings(s: seq<string>): (r: seq<string>)
    ensures SortedStrings(r)
    ensures multiset(r) == multiset(s)
  {
    if |s| == 0 then []
    else
      assert s == [s[0]] + s[1..];
      InsertSorted(s[0], SortStrings(s[1..]))
  }

  lemma SortedHeadIsLeast(s: seq<string>, x: string)
    requires SortedStrings(s) && x in multiset(s)
    ensures LexLeq(s[0], x)
  {
    var k :| 0 <= k < |s| && s[k] == x;
    if k == 0 {
      LexReflexive(x);
    }
  }

  lemma MultisetOfTail(a: seq<string>)
    requires |a| > 0
    ensures multiset(a[1..]) == multiset(a) - multiset{a[0]}
  {
    assert a == [a[0]] + a[1..];
  }

  lemma SortedTail(a: seq<string>)
    requires |a| > 0 && SortedStrings(a)
    ensures SortedStrings(a[1..])
  {
    var rest := a[1..];
    forall i, j | 0 <= i < j < |rest|
      ensures LexLeq(rest[i], rest[j])
    {
      assert rest[i] == a[i + 1] && rest[j] == a[j + 1];
    }
  }

  /** A sorted arrangement of a multiset of strings is unique, so `sorted` has one possible answer. */
  lemma {:induction false} SortedPermutationUnique(a: seq<string>, b: seq<string>)
    requires SortedStrings(a) && SortedStrings(b)
    requires multiset(a) == multiset(b)
    ensures a == b
    decreases |a|
  {
    if |a| == 0 {
      assert |multiset(b)| == 0;
    } else {
      assert a[0] in multiset(b);
      assert b[0] in multiset(a);
      SortedHeadIsLeast(b, a[0]);
      SortedHeadIsLeast(a, b[0]);
      LexAntisymmetric(a[0], b[0]);
      MultisetOfTail(a);
      MultisetOfTail(b);
      SortedTail(a);
      SortedTail(b);
      SortedPermutationUnique(a[1..], b[1..]);
    }
  }
}

=== FILE: wrappers.dfy ===
/** Failure-compatible Option and Result types used throughout the model. */
module Wrappers {

  /** A value that may be absent; Python's `None` where a value is optional. */
  datatype Option<+T> = None | Some(value: T) {

    function GetOr(default: T): T {
      match this
      case Some(v) => v
      case None => default
    }
  }

  /** Either a value or the exception that Python code would raise instead. */
  datatype Result<+T, +E> = Ok(value: T) | Err(error: E) {

    predicate IsFailure() {
      Err?
    }

    function PropagateFailure<U>(): Result<U, E>
      requires Err?
    {
      Err(error)
    }

    function Extract(): T
      requires Ok?
    {
      value
    }

    /** Applies `f` to the error of a failure and leaves a success alone. */
    function MapError<F>(f: E -> F): Result<T, F> {
      match this
      case Ok(v) => Ok(v)
      case Err(e) => Err(f(e))
    }
  }
}
